=== FILE: README.md ===
# WhatsApp audio automation: a verified model of its core

The program watches a downloads folder for WhatsApp voice messages
(`WhatsApp Audio 2026-02-03 at 21.34.20.aac`), waits until each download has
stopped growing, asks for a title and an optional tag, and converts the file
to an MP3 in a library folder under a sanitised, collision-free name. All of
the logic lives in `main.py`; this project models its pure parts in Dafny and
proves what they promise:

- `naming.dfy` — `sanitize` and `build_filename`, and the answer handling at
  the end of `prompt_naming`;
- `split.dfy` — an independent description of `sanitize`'s last two steps
  as "split at `_`, drop empty pieces, join with `_`", proved equal to them;
- `paths.dfy` — the parts of `pathlib` the program uses (`name`, `stem`,
  `suffix`);
- `collision.dfy` — `next_available`, the collision-free destination picker,
  over a target folder given as a finite set of file names;
- `pattern.dfy` — the regular expression `WHATSAPP_RE`;
- `events.dfy` — the filter and dedup ledger of `Handler.on_created` as a
  pure step `(ledger, path, isDir, now) -> (decision, ledger')`, and a theorem
  about whole runs of notifications;
- `stability.dfy` — `wait_until_file_is_stable` over the finite sequence of
  polls made before the timeout;
- `pipeline.dfy` — `on_created` end to end, up to the transcoder call;
- `text.dfy`, `wrappers.dfy` — shared helpers (Python whitespace, ASCII case,
  trimming, decimal rendering; `Option`).

Time is a `real` number of seconds passed in as `now`; the file system is a
set of names; dialogs are their answers.

## Behaviour worth knowing

These follow the code, where one might expect otherwise:

- `sanitize` is not idempotent. `str.strip()` trims whitespace before
  `strip("_")` runs, so `"_\ta"` sanitises to `"\ta"` and that to `"a"`
  (`Naming.SanitizeNotIdempotent`). It is idempotent exactly when its result
  does not start or end with whitespace (`Naming.SanitizeIdempotentIff`), in
  particular on text whose only whitespace is the plain space.
- Only the plain space becomes `_`; a tab or newline inside a title stays.
- A title that sanitises to nothing (`"???"`, or blanks: `prompt_naming`
  tests the untrimmed answer for emptiness) gives a name starting with `_`,
  such as `_2026-02-03.mp3` (`Naming.BuildFilenameNothingKept`,
  `Naming.BlankTitleAccepted`). Collision probes keep that leading `_`
  (`Pipeline.ProbeOfBuiltName`).
- The ledger is written before the extension and name tests, so irrelevant
  files are recorded too; a rejected duplicate does not refresh its time; a
  stored time of `0` counts as no entry (`if last and ...`,
  `Events.DedupZeroStamp`).
- The `.crdownload` test can never change whether a file is accepted, since
  that suffix is not an audio extension (`Events.IncompleteIsNotAudio`).
- A file whose size never stops changing, or that only ever reads as empty,
  is never reported stable; misses (file absent) between two equal reads do
  not reset the remembered size.

## Model

| member | source | states |
|---|---|---|
| Text.Trim | main.py:38 | `strip()`: every character cut from either end is whitespace, the kept text neither starts nor ends with whitespace, and it is a contiguous part of the input |
| Text.Decimal | main.py:51 | the index written into a probe name is a non-empty string of digits without a leading zero |
| Text.DecimalRoundTrip | main.py:51 | the decimal rendering of the probe index reads back as the index |
| Text.DecimalInjective | main.py:51 | different probe indices are written differently |
| Naming.Scrub | main.py:38-40 | spaces and the nine characters Windows forbids in names become `_`, every other character stays in place |
| Naming.ScrubKeepsKept | main.py:38-40 | the replacement step loses no character other than spaces and illegal ones |
| Naming.CollapseSeps | main.py:41 | `re.sub("_+", "_")` leaves no doubled `_`, never lengthens the text, keeps both end characters and adds no character; Split.CollapseThenStrip pins down its result exactly |
| Naming.CollapseKeepsContent | main.py:41 | collapsing keeps every character other than `_`, in order |
| Naming.CollapseFixesClean | main.py:41 | text without a doubled `_` is left as it is |
| Naming.TrimSepsKeepsContent | main.py:41 | `strip("_")` removes only underscores |
| Naming.Sanitize | main.py:37-42 | the result holds no space, no illegal character, no `__`, does not start or end with `_`, and keeps every other character of the whitespace-trimmed input in order; Split.SanitizeSplitsAndJoins states it exactly |
| Split.Pieces | main.py:41 | reference for the last two steps: the non-empty, separator-free pieces of the text between `_` characters |
| Split.PiecesCons | main.py:41 | a kept character in front starts a new first piece or extends the first one |
| Split.PiecesSepPrefix | main.py:41 | leading `_` characters add no piece |
| Split.PiecesSepSuffix | main.py:41 | trailing `_` characters add no piece |
| Split.PiecesOfStrip | main.py:41 | `strip("_")` keeps the pieces |
| Split.PiecesOfCollapse | main.py:41 | `re.sub("_+", "_")` keeps the pieces |
| Split.JoinPiecesOfClean | main.py:41 | text without `__` and without `_` at either end is the join of its pieces |
| Split.CollapseThenStrip | main.py:41 | `re.sub("_+", "_", t).strip("_")` equals `"_".join(p for p in t.split("_") if p)`: every run of `_` between kept characters becomes exactly one `_`, and runs at the ends vanish |
| Split.SanitizeSplitsAndJoins | main.py:37-42 | `sanitize` is exactly: trim whitespace, replace spaces and illegal characters by `_`, then join the non-empty `_`-separated pieces with single `_` |
| Naming.SanitizeFixesCleanText | main.py:37-42 | text with no space, illegal character or `__`, no `_` at either end and no whitespace at either end is returned unchanged |
| Naming.SanitizeIdempotentIff | main.py:37-42 | sanitising twice equals sanitising once exactly when the first result has no whitespace at its ends |
| Naming.SanitizeFixedPoints | main.py:37-42 | among texts of the shape `sanitize` returns, the unchanged ones are exactly those without whitespace at their ends |
| Naming.SanitizeChangesUnclean | main.py:38 | text starting or ending in whitespace comes back shorter |
| Naming.SanitizeIdempotent | main.py:37-42 | sanitising is idempotent on text whose only whitespace is the plain space |
| Naming.SanitizeNotIdempotent | main.py:38-41 | counterexample: `"_\ta"` gives `"\ta"`, which gives `"a"` |
| Naming.BuildFilename | main.py:104-110 | the name ends in `.mp3`; it is `title_date.mp3` when the tag sanitises to nothing and `title_date_tag.mp3` otherwise, so no separator is left dangling |
| Naming.JoinClean | main.py:107-109 | joining two clean pieces with one `_` keeps the stem clean |
| Naming.SanitizeKeepsVisible | main.py:37-42 | a character of the title that is neither whitespace, nor illegal, nor `_` survives sanitising |
| Naming.JoinAfter | main.py:107-109 | appending `_` and a clean piece to text that is empty or has no space, illegal character, `__` or trailing `_` gives text with none of those, which starts like the front text, or with `_` when that is empty |
| Naming.KeptClean | main.py:107-109 | non-empty text of characters that are neither spaces, illegal nor `_` is a clean piece |
| Naming.TrimSepsClean | main.py:41 | stripping `_` from the ends of text without a space, illegal character or `__` leaves clean text |
| Naming.DateTokenClean | main.py:107 | a `YYYY-MM-DD` date token has no space, illegal character or `_`, so it is a clean piece |
| Naming.StemOfShape | main.py:105-109 | a stem assembled from a clean title part and a clean or empty tag part around a clean date has no space, illegal character, `__` or trailing `_`, and starts with `_` exactly when the title part is empty |
| Naming.StemOfBuilt | main.py:107-110 | the built name is exactly the assembled stem with `.mp3` appended |
| Naming.BuildFilenameStemShape | main.py:104-110 | for every title and tag and any date token, the stem has no space, illegal character, `__` or trailing `_`, and starts with `_` exactly when the title sanitises to nothing |
| Naming.BuildFilenameStemClean | main.py:104-110 | with a title holding a character that is neither whitespace, nor illegal, nor `_`, and a non-empty date of such characters, the stem has no space, illegal character, `__` or `_` at either end |
| Naming.BuildFilenameExampleNoTag | main.py:104-110 | `("My Song", "2026-02-03", "")` gives `My_Song_2026-02-03.mp3` |
| Naming.BuildFilenameExampleTag | main.py:104-110 | with tag `T1` the name is `My_Song_2026-02-03_T1.mp3` |
| Naming.SanitizeNothingKept | main.py:37-42 | a title made only of spaces, illegal characters and `_` sanitises to the empty text |
| Naming.SanitizeQuestionMarks | main.py:37-42 | example: `"???"` sanitises to the empty text |
| Naming.BuildFilenameNothingKept | main.py:104-110 | for a title made only of spaces, illegal characters and `_`, the name is `_date.mp3`, or `_date_tag.mp3` when the tag sanitises to something |
| Naming.BuildFilenameEmptyTitle | main.py:104-110 | example: the title `"???"` with date `2026-02-03` and no tag yields `_2026-02-03.mp3` |
| Naming.NamingFromAnswers | main.py:90-101 | a cancelled or empty title dialog cancels; otherwise both answers come back trimmed, a cancelled tag dialog giving the empty tag |
| Naming.BlankTitleAccepted | main.py:90-101 | a non-empty title of whitespace only passes the emptiness test, which looks at the untrimmed answer, and leaves an empty title, the tag answer being trimmed as usual |
| Naming.BlankTitleExample | main.py:90-101 | example: the title `"  "` with the tag dialog cancelled gives an empty title and an empty tag |
| Paths.BaseName | main.py:118 | the name of a path is its tail after the last `/` or `\` and holds no separator |
| Paths.Suffix | main.py:48 | `suffix`: empty, or the text from the last dot, which is neither the first nor the last character; empty only when no such dot exists |
| Paths.Stem | main.py:48 | stem followed by suffix is the whole name |
| Paths.SuffixOfExtension | main.py:136-139 | a non-empty front followed by a one-dot extension has that extension as suffix and the front as stem |
| Paths.BaseNameOfJoin | main.py:118 | the name of `dir\name` is `name` |
| Collision.Candidate | main.py:51 | a probe `stem_k.suffix` is longer than the name, so it never equals the name it was made from |
| Collision.CandidateKeepsExtension | main.py:48-51 | a probe of a name with an extension keeps that extension, and its stem is the old stem, `_` and the index |
| Collision.CandidateInjective | main.py:49-54 | different indices give different probes |
| Collision.ProbesContain | main.py:49-51 | each of the first n probes is among them |
| Collision.ProbesExclude | main.py:49-51 | a later probe is never among the first n |
| Collision.ProbesCount | main.py:49-54 | the first n probes are n distinct names |
| Collision.TakenProbesBound | main.py:49-54 | if the first n probes are all taken, the set holds at least n names, so the loop stops by probe `len(existing) + 1` |
| Collision.NextAvailable | main.py:45-54 | the result is never an existing name; it is the name itself when free, otherwise the probe with the least free index |
| Collision.LeastFreeUnique | main.py:49-54 | the least free index is unique, so the choice is determined |
| Collision.CollisionsLeaveN | main.py:49-54 | with the name and its first N-1 probes taken, N is the least free index |
| Collision.NextAvailableAfterCollisions | main.py:45-54 | with `stem`, `stem_1` … `stem_(N-1)` taken, the pick is `stem_N` |
| Collision.CandidateOfMp3 | main.py:48-51 | the probes of a name ending in `.mp3` read `stem_k.mp3` and have suffix `.mp3` |
| Collision.CandidateOfBuiltName | main.py:157-158 | every built name has suffix `.mp3`, so its probes keep the extension |
| Collision.DecimalClean | main.py:51 | the digits of a probe index form a clean piece |
| Collision.ProbeKeepsShape | main.py:48-51 | a probe `stem_k.mp3` of a `.mp3` name whose stem has no space, illegal character, `__` or trailing `_` has a stem with none of those either, starting with the same character |
| Collision.PickKeepsShape | main.py:45-54 | whichever of the name and its probes `next_available` picks keeps that shape and the name's first character |
| Pattern.MatchWhatsApp | main.py:19 | a match yields a `YYYY-MM-DD` date token taken from characters 15 to 25 of the stem |
| Pattern.MatchAccepts | main.py:19 | keyword and ` at ` in any letter case around any date token, followed by anything, match with that date |
| Pattern.MatchDecomposes | main.py:19 | every matching stem is keyword, date, ` at ` and a tail |
| Pattern.LowerKeepsDateToken | main.py:19 | lower-casing neither makes nor breaks a date token |
| Pattern.MatchIgnoresCase | main.py:19 | the letter case of the stem never changes the outcome |
| Pattern.MatchExamples | main.py:18-19 | the typical voice-message stem matches with `2026-02-03`; `random` does not |
| Events.DedupHit | main.py:120-123 | a duplicate needs an entry for the path younger than 15 s |
| Events.DedupZeroStamp | main.py:122-123 | `if last and ...`: a stored time of zero never makes a duplicate and counts as no entry at all |
| Events.DedupRecentStamp | main.py:122-123 | with a non-zero stored time, a notification is a duplicate exactly when it comes less than 15 s later |
| Events.Remember | main.py:125-133 | the path is recorded at `now`; pruning happens only above 500 entries and then removes exactly the entries older than `now - 30`; the new entry and every recent one survive; a ledger left above 500 holds only recent entries |
| Events.Classify | main.py:135-146 | a file name is accepted iff its lower-cased suffix is not `.crdownload`, is an audio extension, and its stem matches, with the date token from the stem |
| Events.Admit | main.py:115-146 | directories and duplicates leave the ledger unchanged; every other notification is recorded before the name tests, and its decision depends on the name alone |
| Events.AdmitAcceptsIff | main.py:115-146 | a notification is accepted iff it is a file, not a dedup hit, and its name passes all three tests against `AUDIO_EXTS` |
| Events.LoweredExtsAreConfigured | config.py:13-23 | the configured extensions are lower case already |
| Events.IncompleteIsNotAudio | main.py:136-140 | `.crdownload` is not an audio extension, so that test never changes acceptance |
| Events.ClassifyAcceptsVoiceMessage | main.py:135-146 | `WhatsApp Audio 2026-02-03 at 21.34.20.aac` is accepted with `2026-02-03` |
| Events.ClassifyRejectsOtherName | main.py:142-144 | `random.aac` is rejected by the name pattern |
| Events.ClassifyRejectsIncomplete | main.py:136-137 | the `.crdownload` form of a voice message is rejected |
| Events.AdmitClassifiesName | main.py:118-146 | a notification for `dir\name` is decided by `name` |
| Events.RepeatWithinWindow | main.py:120-125 | a second notification for the same path less than 15 s after one with a non-zero time that passed is a duplicate and leaves the ledger as it was |
| Events.RepeatAfterWindow | main.py:120-125 | one 15 s or more later is decided afresh, exactly as the first, and re-recorded |
| Events.RemembersNewest | main.py:120-125 | a notification that passes the dedup test is in the ledger afterwards at its own time |
| Events.RemembersOlder | main.py:125-133 | an entry at least as recent as a notification within the prune age of the next one survives that next one |
| Events.RemembersHolds | main.py:120-133 | along a run with a steady clock, the ledger keeps an entry at least as recent as every notification that passed the dedup test within the prune age |
| Events.NoHitMeansOld | main.py:122-123 | a positive entry at least as recent as `t` that does not make a duplicate at `now` is at least 15 s before `now` |
| Events.DedupWindowHolds | main.py:120-133 | along a run with a steady clock, two notifications for one path that both pass the dedup test are at least 15 s apart |
| Stability.Scan | main.py:25-33 | the polling loop stops at the first poll that repeats the previous size read and is positive, and times out when none does |
| Stability.WaitUntilStable | main.py:22-34 | the waiter reports stable at the first settling poll and not stable when no poll settles |
| Stability.LastReadSource | main.py:24-32 | the remembered size is -1 until the file is first seen, then the latest size read, misses not resetting it |
| Stability.LastReadAfterMisses | main.py:26-28 | polls that find no file leave the remembered size alone |
| Stability.SettlesAtIffSuccessiveReads | main.py:22-34 | a poll settles iff it and the previous existing read agree on a positive size |
| Stability.GrowingNeverSettles | main.py:22-34 | a file whose size only grows is never reported stable |
| Stability.LastReadOfPrefix | main.py:25 | later polls do not change what earlier polls remembered |
| Stability.LongerWaitSameAnswer | main.py:25-31 | a longer timeout does not change an answer of stable |
| Stability.SingleReadNeverSettles | main.py:30 | a single read never suffices |
| Stability.WaitExamples | main.py:22-34 | `0,0` fails; `0,0,100,100` succeeds at the fourth poll; `100, absent, 100` succeeds |
| Pipeline.OnCreated | main.py:114-158 | the notification is ignored exactly when the filter rejects it, with the filter's reason; otherwise a timeout, a cancelled dialog and a conversion are exclusive outcomes in that order, and conversion happens exactly when all three earlier steps pass; the destination is never an existing file, is the built name when that is free, and otherwise is its probe with the least free index; it ends in `.mp3`, its stem has no space, illegal character, `__` or trailing `_`, and it starts with `_` exactly when the title sanitised to nothing |
| Pipeline.BuiltNameShape | main.py:157 | for every title and tag and any date token, the built name ends in `.mp3`, its stem has no space, illegal character, `__` or trailing `_`, and it starts with `_` exactly when the title sanitises to nothing |
| Pipeline.ProbeOfBuiltName | main.py:157-158 | every probe `stem_k.mp3` of the built name has that same shape and the same leading-`_` condition |

## Left out

- `convert_to_mp3` (main.py:57-67): runs ffmpeg in a subprocess and creates directories; a foreign call.
- `prompt_naming` dialogs (main.py:76-89): tkinter windows; only the handling of their answers is modelled, with the answers as parameters.
- `main` and the watchdog observer (main.py:178-192): thread start-up, the sleep loop and interrupt handling are concurrency and I/O.
- Pipeline.OnCreated: stops where the transcoder is called (main.py:160-175); the conversion, the deletion of the source, the console messages and exception handling are not modelled.
- Stability.WaitUntilStable: the clock and `time.sleep` are abstracted; the polls made before the timeout are given as a sequence, so the 90 s timeout and 0.4 s interval do not appear.
- Stability.WaitUntilStable: a file removed between `path.exists()` (main.py:26) and `path.stat()` (main.py:29) makes `stat` raise `FileNotFoundError`; a poll here either reads a size or finds no file, so this exception path is not modelled. The wait (main.py:148) runs outside the `try` of main.py:160, so in the program that exception leaves `on_created`; Pipeline.OnCreated has no outcome for it.
- Events.Admit: `time.time()` is the parameter `now`, a `real`; floating-point rounding of timestamps is not modelled. The ledger key is the event path as given; the normalisation `str(Path(...))` applies is not modelled.
- Paths.BaseName: takes the text after the last `/` or `\`, the Windows separators; drive-relative paths and trailing separators are not modelled.
- Pattern.MatchWhatsApp: case-insensitive matching is ASCII only (Python's `re.IGNORECASE` also matches the long s ſ, U+017F, against `s`, and the dotless ı and dotted İ, U+0131 and U+0130, against `i`), and `\d` is ASCII digits only (Python accepts every Unicode decimal digit).
- Events.Classify: `.lower()` on the suffix is modelled as ASCII lower-casing.
- Collision.NextAvailable: the folder is a snapshot; a file created between the probe and the write is out of scope, as in the program.
- Collision.NextAvailable: `path.exists()` on Windows ignores letter case; the model represents that only by asking `existing` to list every case variant of each stored name, and does not fold case itself.
- config.py: only `AUDIO_EXTS` is used; paths, the ffmpeg name, the quality string and the archive and delete flags are not.

=== FILE: collision.dfy ===
/** `next_available` (main.py:45-54): the collision-free destination picker.
    The target directory is modelled as the finite set `existing` of every
    name `path.exists()` accepts; `path.exists()` is membership in that set.
    On Windows that lookup ignores letter case, so `existing` lists each
    stored file under all its letter-case variants. */
module Collision {
  import opened Text
  import opened Paths
  import opened Naming

  /** The k-th probe, `with_name(f"{stem}_{k}{suffix}")`. It is longer than
      the name, so never the name itself. */
  function Candidate(name: string, k: nat): (r: string)
    ensures |r| > |name|
  {
    assert Stem(name) + Suffix(name) == name;
    Stem(name) + "_" + Decimal(k) + Suffix(name)
  }

  /** A probe of a name with an extension keeps that extension, and its
      stem is the old stem, `_` and the index. */
  lemma CandidateKeepsExtension(name: string, k: nat)
    requires Suffix(name) != []
    ensures Suffix(Candidate(name, k)) == Suffix(name)
    ensures Stem(Candidate(name, k)) == Stem(name) + "_" + Decimal(k)
  {
    SuffixOfExtension(Stem(name) + "_" + Decimal(k), Suffix(name));
  }

  /** Different indices give different probes. */
  lemma CandidateInjective(name: string, a: nat, b: nat)
    requires Candidate(name, a) == Candidate(name, b)
    ensures a == b
  {
    var st, sf := Stem(name), Suffix(name);
    var da, db := Decimal(a), Decimal(b);
    var c := Candidate(name, a);
    assert |da| == |db|;
    assert c[|st| + 1..|st| + 1 + |da|] == da;
    assert Candidate(name, b)[|st| + 1..|st| + 1 + |db|] == db;
    DecimalInjective(a, b);
  }

  /** The first n probes. */
  function Probes(name: string, n: nat): set<string> {
    if n == 0 then {} else Probes(name, n - 1) + {Candidate(name, n)}
  }

  /** Each of the first n probes is among them. */
  lemma {:induction false} ProbesContain(name: string, n: nat, k: nat)
    requires 1 <= k <= n
    ensures Candidate(name, k) in Probes(name, n)
  {
    if k < n {
      ProbesContain(name, n - 1, k);
    }
  }

  /** A later probe is not among the first n. */
  lemma {:induction false} ProbesExclude(name: string, n: nat, m: nat)
    requires n < m
    ensures Candidate(name, m) !in Probes(name, n)
  {
    if n > 0 {
      ProbesExclude(name, n - 1, m);
      if Candidate(name, m) == Candidate(name, n) {
        CandidateInjective(name, m, n);
      }
    }
  }

  lemma {:induction false} ProbesCount(name: string, n: nat)
    ensures |Probes(name, n)| == n
  {
    if n > 0 {
      ProbesCount(name, n - 1);
      ProbesExclude(name, n - 1, n);
    }
  }

  /** If the first n probes are all taken, `existing` holds at least n
      names: the probing loop cannot run past |existing| + 1. */
  lemma TakenProbesBound(existing: set<string>, name: string, n: nat)
    requires forall k :: 1 <= k <= n ==> Candidate(name, k) in existing
    ensures n <= |existing|
  {
    ProbesCount(name, n);
    var p := Probes(name, n);
    assert p <= existing by {
      ProbesTaken(existing, name, n);
    }
    assert existing == p + (existing - p);
  }

  lemma {:induction false} ProbesTaken(existing: set<string>, name: string, n: nat)
    requires forall k :: 1 <= k <= n ==> Candidate(name, k) in existing
    ensures Probes(name, n) <= existing
  {
    if n > 0 {
      ProbesTaken(existing, name, n - 1);
    }
  }

  /** `k` is the least index whose probe is free. */
  predicate LeastFree(existing: set<string>, name: string, k: nat) {
    && 1 <= k
    && Candidate(name, k) !in existing
    && forall j :: 1 <= j < k ==> Candidate(name, j) in existing
  }

  /** Python's `next_available`: the name itself when free, otherwise the
      probe with the least free index. */
  method NextAvailable(existing: set<string>, name: string) returns (r: string)
    ensures r !in existing
    ensures name !in existing ==> r == name
    ensures name in existing ==> exists k :: LeastFree(existing, name, k) && r == Candidate(name, k)
  {
    if name !in existing {
      return name;
    }
    var i := 1;
    while Candidate(name, i) in existing
      invariant 1 <= i <= |existing| + 1
      invariant forall j :: 1 <= j < i ==> Candidate(name, j) in existing
      decreases |existing| + 1 - i
    {
      TakenProbesBound(existing, name, i);
      i := i + 1;
    }
    return Candidate(name, i);
  }

  /** The least free index is unique, so the choice is determined. */
  lemma LeastFreeUnique(existing: set<string>, name: string, a: nat, b: nat)
    requires LeastFree(existing, name, a) && LeastFree(existing, name, b)
    ensures a == b
  {
  }

  /** With the name and its first n - 1 probes taken (and nothing else),
      the pick is the n-th probe. */
  lemma NextAvailableAfterCollisions(name: string, n: nat, r: string)
    requires 1 <= n
    requires exists k :: LeastFree({name} + Probes(name, n - 1), name, k) && r == Candidate(name, k)
    ensures r == Candidate(name, n)
  {
    var existing := {name} + Probes(name, n - 1);
    var k :| LeastFree(existing, name, k) && r == Candidate(name, k);
    CollisionsLeaveN(name, n);
    LeastFreeUnique(existing, name, k, n);
  }

  /** With the name and its first n - 1 probes taken, n is the least free
      index. */
  lemma CollisionsLeaveN(name: string, n: nat)
    requires 1 <= n
    ensures LeastFree({name} + Probes(name, n - 1), name, n)
  {
    var existing := {name} + Probes(name, n - 1);
    assert Candidate(name, n) !in existing by {
      ProbesExclude(name, n - 1, n);
    }
    forall j | 1 <= j < n ensures Candidate(name, j) in existing {
      ProbesContain(name, n - 1, j);
    }
  }

  /** A name ending in `.mp3` keeps that as its suffix, so its probes read
      `{stem}_{k}.mp3`. */
  lemma CandidateOfMp3(name: string, k: nat)
    requires |name| > 4 && name[|name| - 4..] == ".mp3"
    ensures Suffix(name) == ".mp3"
    ensures Candidate(name, k) == name[..|name| - 4] + "_" + Decimal(k) + ".mp3"
    ensures Suffix(Candidate(name, k)) == ".mp3"
  {
    var front := name[..|name| - 4];
    assert name == front + ".mp3";
    SuffixOfExtension(front, ".mp3");
    CandidateKeepsExtension(name, k);
  }

  /** The digits of an index form a clean stem. */
  lemma DecimalClean(k: nat)
    ensures IsCleanStem(Decimal(k))
  {
    forall c | c in Decimal(k) ensures Kept(c) {
      assert IsDigit(c);
    }
    KeptClean(Decimal(k));
  }

  /** A probe of a `.mp3` name whose stem has the built shape has a stem of
      that shape too, starting with the same character: `{stem}_{k}` adds
      one separator and the index digits. */
  lemma ProbeKeepsShape(name: string, k: nat)
    requires IsBuiltName(name)
    ensures IsBuiltName(Candidate(name, k))
    ensures Candidate(name, k)[0] == name[0]
  {
    var stem := name[..|name| - 4];
    var probe := stem + [Sep] + Decimal(k);
    CandidateOfMp3(name, k);
    DecimalClean(k);
    JoinAfter(stem, Decimal(k));
    assert Candidate(name, k) == probe + ".mp3";
    assert (probe + ".mp3")[..|probe|] == probe;
  }

  /** Whatever `next_available` picks for a `.mp3` name whose stem has the
      built shape ends in `.mp3`, has a stem of that shape, and starts with
      the same character as the name. */
  lemma PickKeepsShape(existing: set<string>, name: string, d: string)
    requires IsBuiltName(name)
    requires name !in existing ==> d == name
    requires name in existing ==> exists k :: LeastFree(existing, name, k) && d == Candidate(name, k)
    ensures IsBuiltName(d)
    ensures d[0] == name[0]
  {
    if name in existing {
      var k :| LeastFree(existing, name, k) && d == Candidate(name, k);
      ProbeKeepsShape(name, k);
    }
  }

  /** Every name the naming engine builds has suffix `.mp3`. */
  lemma CandidateOfBuiltName(title: string, date: string, tag: string, k: nat)
    ensures var name := BuildFilename(title, date, tag);
      && Suffix(name) == ".mp3"
      && Candidate(name, k) == name[..|name| - 4] + "_" + Decimal(k) + ".mp3"
  {
    var name := BuildFilename(title, date, tag);
    CandidateOfMp3(name, k);
  }
}

=== FILE: events.dfy ===
/** The filter and dedup ledger of `Handler.on_created` (main.py:113-146):
    one notification in, a decision and the updated ledger out. The clock
    reading `time.time()` is the parameter `now`. */
module Events {
  import opened Text
  import opened Wrappers
  import opened Paths
  import opened Pattern

  /** `DEDUP_SECONDS` (main.py:15). */
  const DedupSeconds: real := 15.0

  /** The ledger is pruned only once it holds more entries than this. */
  const PruneThreshold: nat := 500

  /** Pruning removes entries older than twice the dedup window. */
  const PruneAge: real := 2.0 * DedupSeconds

  /** Browsers' marker for a download in progress. */
  const IncompleteSuffix: string := ".crdownload"

  /** `AUDIO_EXTS` (config.py:13-23). */
  const AudioExts: set<string> := {".aac", ".ogg", ".opus", ".m4a", ".mp4", ".wav", ".webm", ".mpeg", ".mp3"}

  /** `PROCESSED_AT` (main.py:14): path to the time it was last let through
      the dedup test. */
  type Ledger = map<string, real>

  /** The dedup test of main.py:122-123. Python's `if last and ...` treats a
      stored time of zero like a missing entry. */
  predicate DedupHit(ledger: Ledger, path: string, now: real)
    ensures DedupHit(ledger, path, now) ==> path in ledger && ledger[path] > now - DedupSeconds
  {
    path in ledger && ledger[path] != 0.0 && now - ledger[path] < DedupSeconds
  }

  /** A stored time of zero counts as no entry at all: it never makes a
      duplicate, however close `now` is to it. */
  lemma DedupZeroStamp(ledger: Ledger, path: string, now: real)
    requires path in ledger && ledger[path] == 0.0
    ensures !DedupHit(ledger, path, now)
    ensures DedupHit(ledger, path, now) == DedupHit(ledger - {path}, path, now)
  {
  }

  /** A non-zero entry younger than the window is a duplicate. */
  lemma DedupRecentStamp(ledger: Ledger, path: string, now: real)
    requires path in ledger && ledger[path] != 0.0
    ensures DedupHit(ledger, path, now) <==> now - ledger[path] < DedupSeconds
  {
  }

  /** Recording the path (main.py:125) and pruning the ledger when it has
      grown past the threshold (main.py:128-133). */
  function Remember(ledger: Ledger, path: string, now: real): (r: Ledger)
    ensures path in r && r[path] == now
    ensures r.Keys <= ledger.Keys + {path}
    ensures forall k :: k in r && k != path ==> r[k] == ledger[k]
    ensures |ledger[path := now]| <= PruneThreshold ==> r == ledger[path := now]
    ensures |ledger[path := now]| > PruneThreshold ==>
      forall k :: k in ledger && k != path ==> (k in r <==> ledger[k] >= now - PruneAge)
    ensures forall k :: k in ledger && ledger[k] >= now - PruneAge ==> k in r
    ensures |r| > PruneThreshold ==> forall k :: k in r ==> r[k] >= now - PruneAge
  {
    var recorded := ledger[path := now];
    if |recorded| > PruneThreshold then
      map k | k in recorded && !(recorded[k] < now - PruneAge) :: recorded[k]
    else
      recorded
  }

  /** What happened to one notification. Every value but `Accepted` is a
      silent rejection. */
  datatype Decision =
    | Directory
    | Duplicate
    | Incomplete
    | NotAudio
    | NoMatch
    | Accepted(date: string)

  /** `{e.lower() for e in config.AUDIO_EXTS}` (main.py:139). */
  function LoweredExts(): set<string> {
    set e | e in AudioExts :: LowerStr(e)
  }

  /** The file-name tests of main.py:135-146, in their order. */
  function Classify(name: string): (d: Decision)
    ensures d.Incomplete? || d.NotAudio? || d.NoMatch? || d.Accepted?
    ensures d.Accepted? <==>
      && LowerStr(Suffix(name)) != IncompleteSuffix
      && LowerStr(Suffix(name)) in LoweredExts()
      && MatchWhatsApp(Stem(name)).Some?
    ensures d.Accepted? ==> IsDateToken(d.date) && d.date == Stem(name)[DateStart..DateEnd]
  {
    var ext := LowerStr(Suffix(name));
    if ext == IncompleteSuffix then Incomplete
    else if ext !in LoweredExts() then NotAudio
    else match MatchWhatsApp(Stem(name))
      case None => NoMatch
      case Some(date) => Accepted(date)
  }

  /** One call of `on_created` up to the point where the stability wait
      begins (main.py:115-146). */
  function Admit(ledger: Ledger, path: string, isDir: bool, now: real): (r: (Decision, Ledger))
    ensures isDir ==> r == (Directory, ledger)
    ensures !isDir && DedupHit(ledger, path, now) ==> r == (Duplicate, ledger)
    ensures !isDir && !DedupHit(ledger, path, now) ==>
      && r.1 == Remember(ledger, path, now)
      && r.0 == Classify(BaseName(path))
  {
    if isDir then (Directory, ledger)
    else if DedupHit(ledger, path, now) then (Duplicate, ledger)
    else (Classify(BaseName(path)), Remember(ledger, path, now))
  }

  /** The accepted notifications are exactly the file notifications that
      pass the dedup test and whose name passes every test. */
  lemma AdmitAcceptsIff(ledger: Ledger, path: string, isDir: bool, now: real)
    ensures var name := BaseName(path);
      Admit(ledger, path, isDir, now).0.Accepted? <==>
        && !isDir
        && !(path in ledger && ledger[path] != 0.0 && now - ledger[path] < DedupSeconds)
        && LowerStr(Suffix(name)) != IncompleteSuffix
        && LowerStr(Suffix(name)) in AudioExts
        && MatchWhatsApp(Stem(name)).Some?
  {
    LoweredExtsAreConfigured();
  }

  /** The configured extensions are already lower case. */
  lemma LoweredExtsAreConfigured()
    ensures LoweredExts() == AudioExts
  {
    assert forall e :: e in AudioExts ==> LowerStr(e) == e;
  }

  /** The download-in-progress test never decides acceptance on its own: the
      marker is not an audio extension. */
  lemma IncompleteIsNotAudio()
    ensures IncompleteSuffix !in LoweredExts()
  {
    LoweredExtsAreConfigured();
  }

  /** A voice-message file is accepted with its date. */
  lemma ClassifyAcceptsVoiceMessage()
    ensures Classify("WhatsApp Audio 2026-02-03 at 21.34.20.aac") == Accepted("2026-02-03")
  {
    var stem := "WhatsApp Audio 2026-02-03 at 21.34.20";
    var name := stem + ".aac";
    assert name == "WhatsApp Audio 2026-02-03 at 21.34.20.aac";
    SuffixOfExtension(stem, ".aac");
    AacIsAudio();
    MatchExamples();
  }

  /** An audio file of another name is rejected by the pattern. */
  lemma ClassifyRejectsOtherName()
    ensures Classify("random.aac") == NoMatch
  {
    var name := "random" + ".aac";
    assert name == "random.aac";
    SuffixOfExtension("random", ".aac");
    AacIsAudio();
    MatchExamples();
  }

  /** The in-progress download of a voice message is rejected. */
  lemma ClassifyRejectsIncomplete()
    ensures Classify("WhatsApp Audio 2026-02-03 at 21.34.20.crdownload") == Incomplete
  {
    var stem := "WhatsApp Audio 2026-02-03 at 21.34.20";
    var name := stem + ".crdownload";
    assert name == "WhatsApp Audio 2026-02-03 at 21.34.20.crdownload";
    SuffixOfExtension(stem, ".crdownload");
    IncompleteSuffixLowered();
  }

  lemma IncompleteSuffixLowered()
    ensures LowerStr(IncompleteSuffix) == IncompleteSuffix
  {
    var s := IncompleteSuffix;
    forall i | 0 <= i < |s| ensures Lower(s[i]) == s[i] {
    }
  }

  lemma AacIsAudio()
    ensures LowerStr(".aac") in LoweredExts()
  {
    LoweredExtsAreConfigured();
    assert LowerStr(".aac") == ".aac";
  }

  /** A notification for a file inside the watched folder is classified by
      its file name alone. */
  lemma AdmitClassifiesName(ledger: Ledger, dir: string, name: string, now: real)
    requires forall c :: c in name ==> !IsPathSep(c)
    requires !DedupHit(ledger, dir + "\\" + name, now)
    ensures Admit(ledger, dir + "\\" + name, false, now).0 == Classify(name)
  {
    BaseNameOfJoin(dir, name);
  }

  /** A second notification for the same path less than the dedup window
      after one that passed the dedup test is a duplicate and leaves the
      ledger alone. */
  lemma RepeatWithinWindow(ledger: Ledger, path: string, t1: real, t2: real)
    requires t1 != 0.0
    requires !DedupHit(ledger, path, t1)
    requires t2 - t1 < DedupSeconds
    ensures var after := Admit(ledger, path, false, t1).1;
      Admit(after, path, false, t2) == (Duplicate, after)
  {
  }

  /** A second notification at least the dedup window later is considered
      afresh and decided as the first was. */
  lemma RepeatAfterWindow(ledger: Ledger, path: string, t1: real, t2: real)
    requires !DedupHit(ledger, path, t1)
    requires t2 - t1 >= DedupSeconds
    ensures var first := Admit(ledger, path, false, t1);
      && Admit(first.1, path, false, t2).0 == first.0
      && Admit(first.1, path, false, t2).1 == Remember(first.1, path, t2)
  {
  }

  /** One notification as delivered by the watcher, stamped with the clock
      reading `on_created` takes. */
  datatype Arrival = Arrival(path: string, isDir: bool, time: real)

  /** The ledger after the first k notifications of a run, starting from
      the empty ledger the process starts with. */
  function LedgerAfter(run: seq<Arrival>, k: nat): Ledger
    requires k <= |run|
  {
    if k == 0 then map[]
    else
      var e := run[k - 1];
      Admit(LedgerAfter(run, k - 1), e.path, e.isDir, e.time).1
  }

  /** The decision on the i-th notification of a run. */
  function DecisionAt(run: seq<Arrival>, i: nat): Decision
    requires i < |run|
  {
    Admit(LedgerAfter(run, i), run[i].path, run[i].isDir, run[i].time).0
  }

  /** The i-th notification got past the directory and dedup tests. */
  predicate Considered(run: seq<Arrival>, i: nat)
    requires i < |run|
  {
    !run[i].isDir && !DedupHit(LedgerAfter(run, i), run[i].path, run[i].time)
  }

  /** A wall clock that reads after the epoch and never goes back. */
  predicate SteadyClock(run: seq<Arrival>) {
    && (forall i :: 0 <= i < |run| ==> run[i].time > 0.0)
    && (forall i, j :: 0 <= i < j < |run| ==> run[i].time <= run[j].time)
  }

  /** What the ledger remembers after the first k notifications: every
      considered notification no older than the prune age, measured from a
      later clock reading `now`, has an entry at least as recent as itself. */
  predicate Remembers(run: seq<Arrival>, k: nat, now: real)
    requires k <= |run|
  {
    forall i {:trigger Considered(run, i)} ::
      0 <= i < k && Considered(run, i) && run[i].time >= now - PruneAge ==>
        run[i].path in LedgerAfter(run, k) && LedgerAfter(run, k)[run[i].path] >= run[i].time
  }

  lemma RememberedEntry(run: seq<Arrival>, k: nat, now: real, i: nat)
    requires k <= |run| && Remembers(run, k, now)
    requires i < k && Considered(run, i) && run[i].time >= now - PruneAge
    ensures run[i].path in LedgerAfter(run, k) && LedgerAfter(run, k)[run[i].path] >= run[i].time
  {
  }

  /** A notification that passes the dedup test leaves its own time in the
      ledger. */
  lemma StepRecords(before: Ledger, e: Arrival)
    requires !e.isDir && !DedupHit(before, e.path, e.time)
    ensures var after := Admit(before, e.path, e.isDir, e.time).1;
      e.path in after && after[e.path] == e.time
  {
  }

  /** An entry no older than the prune age survives a notification, at a
      time no earlier than its own. */
  lemma StepKeeps(before: Ledger, e: Arrival, p: string, t: real)
    requires p in before && before[p] >= t
    requires e.time - PruneAge <= t <= e.time
    ensures var after := Admit(before, e.path, e.isDir, e.time).1;
      p in after && after[p] >= t
  {
  }

  /** The ledger after k notifications is the ledger after k - 1, with the
      k-th notification admitted. */
  lemma LedgerStep(run: seq<Arrival>, k: nat)
    requires 0 < k <= |run|
    ensures LedgerAfter(run, k)
         == Admit(LedgerAfter(run, k - 1), run[k - 1].path, run[k - 1].isDir, run[k - 1].time).1
  {
  }

  /** The newest notification, once considered, is remembered. */
  lemma RemembersNewest(run: seq<Arrival>, k: nat)
    requires 0 < k <= |run| && Considered(run, k - 1)
    ensures run[k - 1].path in LedgerAfter(run, k)
    ensures LedgerAfter(run, k)[run[k - 1].path] >= run[k - 1].time
  {
    LedgerStep(run, k);
    StepRecords(LedgerAfter(run, k - 1), run[k - 1]);
  }

  /** An older remembered notification, still within the prune age of the
      newest one, stays remembered. */
  lemma RemembersOlder(run: seq<Arrival>, k: nat, i: nat)
    requires i < k - 1 && k <= |run|
    requires run[i].path in LedgerAfter(run, k - 1)
    requires LedgerAfter(run, k - 1)[run[i].path] >= run[i].time
    requires run[k - 1].time - PruneAge <= run[i].time <= run[k - 1].time
    ensures run[i].path in LedgerAfter(run, k)
    ensures LedgerAfter(run, k)[run[i].path] >= run[i].time
  {
    LedgerStep(run, k);
    StepKeeps(LedgerAfter(run, k - 1), run[k - 1], run[i].path, run[i].time);
  }

  lemma {:induction false} RemembersHolds(run: seq<Arrival>, k: nat, now: real)
    requires SteadyClock(run)
    requires k <= |run|
    requires k > 0 ==> now >= run[k - 1].time
    ensures Remembers(run, k, now)
  {
    if k > 0 {
      RemembersHolds(run, k - 1, run[k - 1].time);
      forall i | 0 <= i < k && Considered(run, i) && run[i].time >= now - PruneAge
        ensures run[i].path in LedgerAfter(run, k) && LedgerAfter(run, k)[run[i].path] >= run[i].time
      {
        if i == k - 1 {
          RemembersNewest(run, k);
        } else {
          RememberedEntry(run, k - 1, run[k - 1].time, i);
          RemembersOlder(run, k, i);
        }
      }
    }
  }

  /** Over any run with a steady clock, two notifications for the same path
      that both get past the dedup test lie at least the dedup window apart;
      in particular so do two accepted ones. */
  lemma DedupWindowHolds(run: seq<Arrival>, i: nat, j: nat)
    requires SteadyClock(run)
    requires i < j < |run|
    requires run[i].path == run[j].path
    requires Considered(run, i) && Considered(run, j)
    ensures run[j].time - run[i].time >= DedupSeconds
  {
    RemembersHolds(run, j, run[j].time);
    if run[j].time - run[i].time <= PruneAge {
      RememberedEntry(run, j, run[j].time, i);
      NoHitMeansOld(LedgerAfter(run, j), run[i].path, run[j].time, run[i].time);
    }
  }

  /** A positive entry at least as recent as `t` that does not make a
      duplicate at `now` lies the dedup window before it. */
  lemma NoHitMeansOld(ledger: Ledger, path: string, now: real, t: real)
    requires path in ledger && ledger[path] >= t > 0.0
    requires !DedupHit(ledger, path, now)
    ensures now - t >= DedupSeconds
  {
  }
}

=== FILE: naming.dfy ===
/** The naming engine of main.py: `sanitize`, `build_filename`, and the
    answer normalisation at the end of `prompt_naming`. */
module Naming {
  import opened Text
  import opened Wrappers
  import opened Pattern

  /** The separator `sanitize` writes and collapses. */
  const Sep: char := '_'

  /** The characters that are illegal in Windows file names. */
  const Illegal: set<char> := {'<', '>', ':', '"', '/', '\\', '|', '?', '*'}

  /** The characters `sanitize` replaces by the separator: the plain space
      and the illegal characters. Other whitespace inside the text is kept. */
  predicate Replaced(c: char) {
    c == ' ' || c in Illegal
  }

  predicate IsSep(c: char) {
    c == Sep
  }

  predicate NotSep(c: char) {
    c != Sep
  }

  /** The characters that survive sanitising unchanged. */
  predicate Kept(c: char) {
    !Replaced(c) && c != Sep
  }

  predicate NoDoubleSep(s: string) {
    forall i :: 0 <= i < |s| - 1 ==> !(s[i] == Sep && s[i + 1] == Sep)
  }

  /** No doubled separator and none at either end. */
  predicate SepsTidy(s: string) {
    NoDoubleSep(s) && (s == [] || (s[0] != Sep && s[|s| - 1] != Sep))
  }

  /** Text in the shape `sanitize` returns: no space or illegal character,
      and the separators tidy. */
  predicate IsClean(s: string) {
    (forall c :: c in s ==> !Replaced(c)) && SepsTidy(s)
  }

  /** A file-name stem in the shape the naming engine aims for: clean and
      not empty. */
  predicate IsCleanStem(s: string) {
    s != [] && IsClean(s)
  }

  /** The shape of every stem `build_filename` returns: like a clean stem,
      except that it may start with the separator. */
  predicate IsBuiltStem(s: string) {
    && s != []
    && (forall c :: c in s ==> !Replaced(c))
    && NoDoubleSep(s)
    && s[|s| - 1] != Sep
  }

  /** A file name of the shape `build_filename` returns: a built stem
      followed by `.mp3`. */
  predicate IsBuiltName(d: string) {
    |d| > 4 && d[|d| - 4..] == ".mp3" && IsBuiltStem(d[..|d| - 4])
  }

  /** Every space and illegal character replaced by the separator. */
  function Scrub(s: string): (r: string)
    ensures |r| == |s|
    ensures forall i :: 0 <= i < |s| ==> r[i] == (if Replaced(s[i]) then Sep else s[i])
    ensures forall c :: c in r ==> !Replaced(c) && (c == Sep || c in s)
  {
    seq(|s|, i requires 0 <= i < |s| => if Replaced(s[i]) then Sep else s[i])
  }

  lemma {:induction false} ScrubKeepsKept(s: string)
    ensures Filter(Scrub(s), NotSep) == Filter(s, Kept)
  {
    if s != [] {
      assert Scrub(s)[1..] == Scrub(s[1..]);
      ScrubKeepsKept(s[1..]);
    }
  }

  /** Python's `re.sub(r"_+", "_", s)`: every run of separators becomes one. */
  function CollapseSeps(s: string): (r: string)
    ensures NoDoubleSep(r)
    ensures |r| <= |s|
    ensures s != [] ==> r != [] && r[0] == s[0] && r[|r| - 1] == s[|s| - 1]
    ensures forall c :: c in r ==> c in s
  {
    if |s| <= 1 then s
    else if s[0] == Sep && s[1] == Sep then CollapseSeps(s[1..])
    else
      var rest := CollapseSeps(s[1..]);
      assert ([s[0]] + rest)[1..] == rest;
      [s[0]] + rest
  }

  /** Collapsing keeps every character other than the separator, in order. */
  lemma {:induction false} CollapseKeepsContent(s: string)
    ensures Filter(CollapseSeps(s), NotSep) == Filter(s, NotSep)
  {
    if |s| > 1 {
      CollapseKeepsContent(s[1..]);
      if !(s[0] == Sep && s[1] == Sep) {
        assert ([s[0]] + CollapseSeps(s[1..]))[1..] == CollapseSeps(s[1..]);
      }
    }
  }

  /** Text without a doubled separator is left as it is. */
  lemma {:induction false} CollapseFixesClean(s: string)
    requires NoDoubleSep(s)
    ensures CollapseSeps(s) == s
  {
    if |s| > 1 {
      NoDoubleSepSlice(s, 1, |s|);
      assert s[1..|s|] == s[1..];
      CollapseFixesClean(s[1..]);
      assert !(s[0] == Sep && s[1] == Sep);
    }
  }

  lemma NoDoubleSepSlice(s: string, a: nat, b: nat)
    requires a <= b <= |s| && NoDoubleSep(s)
    ensures NoDoubleSep(s[a..b])
  {
    forall i | 0 <= i < b - a - 1 ensures !(s[a..b][i] == Sep && s[a..b][i + 1] == Sep) {
      assert s[a..b][i] == s[a + i] && s[a..b][i + 1] == s[a + i + 1];
    }
  }

  /** `strip("_")` keeps the characters other than the separator. */
  lemma TrimSepsKeepsContent(s: string)
    ensures Filter(Trim(s, IsSep), NotSep) == Filter(s, NotSep)
  {
    FilterOfTrim(s, IsSep, NotSep);
  }

  /** Python's `sanitize` (main.py:37-42): trim whitespace, replace spaces and
      illegal characters by `_`, collapse runs of `_`, strip `_` from both
      ends. */
  function Sanitize(s: string): (r: string)
    ensures IsClean(r)
    ensures Filter(r, Kept) == Filter(Trim(s, IsSpace), Kept)
    ensures forall c :: c in r ==> c == Sep || c in s
    ensures |r| <= |Trim(s, IsSpace)|
  {
    var t := Trim(s, IsSpace);
    var u := CollapseSeps(Scrub(t));
    var r := Trim(u, IsSep);
    TrimSepsClean(u);
    assert forall c :: c in r ==> c == Sep || c in s;
    ScrubKeepsKept(t);
    CollapseKeepsContent(Scrub(t));
    TrimSepsKeepsContent(u);
    FilterAgree(r, Kept, NotSep);
    r
  }

  /** Stripping the separators from the ends of text without a doubled
      separator, space or illegal character leaves clean text. */
  lemma TrimSepsClean(u: string)
    requires NoDoubleSep(u) && forall c :: c in u ==> !Replaced(c)
    ensures IsClean(Trim(u, IsSep))
  {
    NoDoubleSepSlice(u, TrimStart(u, IsSep), TrimEnd(u, IsSep));
  }

  /** Text already in sanitised form, not starting or ending in whitespace,
      is left as it is. */
  lemma SanitizeFixesCleanText(s: string)
    requires IsClean(s)
    requires s == [] || (!IsSpace(s[0]) && !IsSpace(s[|s| - 1]))
    ensures Sanitize(s) == s
  {
    TrimNothing(s, IsSpace);
    assert Scrub(s) == s;
    CollapseFixesClean(s);
    TrimNothing(s, IsSep);
  }

  /** `sanitize` is idempotent on an input exactly when its first result
      neither starts nor ends with whitespace. */
  lemma SanitizeIdempotentIff(s: string)
    ensures Sanitize(Sanitize(s)) == Sanitize(s)
        <==> (Sanitize(s) == [] || (!IsSpace(Sanitize(s)[0]) && !IsSpace(Sanitize(s)[|Sanitize(s)| - 1])))
  {
    SanitizeFixedPoints(Sanitize(s));
  }

  /** Among texts of the shape `sanitize` returns, the fixed points are those
      not starting or ending in whitespace. */
  lemma SanitizeFixedPoints(r: string)
    requires IsClean(r)
    ensures Sanitize(r) == r <==> (r == [] || (!IsSpace(r[0]) && !IsSpace(r[|r| - 1])))
  {
    if r == [] || (!IsSpace(r[0]) && !IsSpace(r[|r| - 1])) {
      SanitizeFixesCleanText(r);
    } else {
      SanitizeChangesUnclean(r);
    }
  }

  /** Text starting or ending in whitespace is shortened. */
  lemma SanitizeChangesUnclean(s: string)
    requires s != [] && (IsSpace(s[0]) || IsSpace(s[|s| - 1]))
    ensures |Sanitize(s)| < |s|
  {
    TrimShortens(s, IsSpace);
  }

  /** On text whose only whitespace character is the plain space,
      `sanitize` is idempotent. */
  lemma SanitizeIdempotent(s: string)
    requires forall c :: c in s && IsSpace(c) ==> c == ' '
    ensures Sanitize(Sanitize(s)) == Sanitize(s)
  {
    var r := Sanitize(s);
    assert forall c :: c in r ==> !IsSpace(c);
    SanitizeIdempotentIff(s);
  }

  /** Without that restriction idempotence fails: `"_\ta"` sanitises to
      `"\ta"`, because the whitespace trim runs before the `_` strip, and a
      second pass trims the tab. */
  lemma SanitizeNotIdempotent()
    ensures Sanitize("_\ta") == "\ta"
    ensures Sanitize(Sanitize("_\ta")) == "a"
  {
    SanitizeUnderscoreTab();
    SanitizeTab();
  }

  lemma SanitizeUnderscoreTab()
    ensures Sanitize("_\ta") == "\ta"
  {
    var s := "_\ta";
    assert !IsSpace(s[0]) && !IsSpace(s[2]);
    TrimNothing(s, IsSpace);
    assert Scrub(s) == s;
    assert NoDoubleSep(s);
    CollapseFixesClean(s);
    assert SkipForward(s, IsSep, 0) == 1 by {
      assert SkipForward(s, IsSep, 1) == 1;
    }
    assert SkipBackward(s, IsSep, 1, 3) == 3;
    assert s[1..3] == "\ta";
  }

  lemma SanitizeTab()
    ensures Sanitize("\ta") == "a"
  {
    var s := "\ta";
    assert SkipForward(s, IsSpace, 0) == 1 by {
      assert SkipForward(s, IsSpace, 1) == 1;
    }
    assert SkipBackward(s, IsSpace, 1, 2) == 2;
    assert s[1..2] == "a";
    assert Scrub("a") == "a";
    TrimNothing("a", IsSep);
  }

  /** Python's `build_filename` (main.py:104-110). */
  function BuildFilename(title: string, date: string, tag: string): (r: string)
    ensures |r| > 4 && r[|r| - 4..] == ".mp3"
    ensures Sanitize(tag) == [] ==> r == Sanitize(title) + "_" + date + ".mp3"
    ensures Sanitize(tag) != [] ==> r == Sanitize(title) + "_" + date + "_" + Sanitize(tag) + ".mp3"
  {
    var t := Sanitize(title);
    var g := if tag != [] then Sanitize(tag) else [];
    StemOf(t, date, g) + ".mp3"
  }

  /** A kept character that is not whitespace survives sanitising, so the
      result is not empty. */
  lemma SanitizeKeepsVisible(s: string, i: nat)
    requires i < |s| && Kept(s[i]) && !IsSpace(s[i])
    ensures s[i] in Sanitize(s)
  {
    var c, t := s[i], Trim(s, IsSpace);
    var a, b := TrimStart(s, IsSpace), TrimEnd(s, IsSpace);
    assert a <= i < b;
    assert t[i - a] == c;
    FilterMembers(t, Kept, c);
    FilterMembers(Sanitize(s), Kept, c);
  }

  /** Two clean stems joined by one separator form a clean stem. */
  lemma JoinClean(a: string, b: string)
    requires IsCleanStem(a) && IsCleanStem(b)
    ensures IsCleanStem(a + [Sep] + b)
  {
    JoinAfter(a, b);
  }

  /** Empty or built-stem text, a separator, and a clean stem join to a
      built stem that starts like the front part, or with the separator
      when that is empty. */
  lemma JoinAfter(a: string, b: string)
    requires a == [] || IsBuiltStem(a)
    requires IsCleanStem(b)
    ensures var s := a + [Sep] + b;
      && IsBuiltStem(s)
      && s[0] == (if a == [] then Sep else a[0])
  {
    var s := a + [Sep] + b;
    forall i | 0 <= i < |s| - 1 ensures !(s[i] == Sep && s[i + 1] == Sep) {
      if i < |a| - 1 {
        assert s[i] == a[i] && s[i + 1] == a[i + 1];
      } else if i == |a| - 1 {
        assert s[i] == a[|a| - 1];
      } else if i == |a| {
        assert s[i + 1] == b[0];
      } else {
        assert s[i] == b[i - |a| - 1] && s[i + 1] == b[i - |a|];
      }
    }
    assert s[|s| - 1] == b[|b| - 1];
  }

  /** Non-empty text of kept characters only is a clean stem. */
  lemma KeptClean(s: string)
    requires s != [] && forall c :: c in s ==> Kept(c)
    ensures IsCleanStem(s)
  {
    forall i | 0 <= i < |s| - 1 ensures s[i] != Sep {
      assert s[i] in s;
    }
    assert s[0] in s && s[|s| - 1] in s;
  }

  /** A `YYYY-MM-DD` date token is a clean stem. */
  lemma DateTokenClean(date: string)
    requires IsDateToken(date)
    ensures IsCleanStem(date)
  {
    forall c | c in date ensures Kept(c) {
      var i :| 0 <= i < |date| && date[i] == c;
    }
    KeptClean(date);
  }

  /** The stem `BuildFilename` assembles from a title part, a date and a tag
      part, before `.mp3` is appended. */
  function StemOf(t: string, date: string, g: string): string {
    var base := t + [Sep] + date;
    if g != [] then base + [Sep] + g else base
  }

  /** Assembled from sanitised parts around a clean date, the stem has the
      shape of a clean stem except that it starts with a separator exactly
      when the title part is empty. */
  lemma StemOfShape(t: string, date: string, g: string)
    requires IsClean(t)
    requires IsCleanStem(date)
    requires g == [] || IsCleanStem(g)
    ensures var stem := StemOf(t, date, g);
      && IsBuiltStem(stem)
      && (stem[0] == Sep <==> t == [])
  {
    JoinAfter(t, date);
    if g != [] {
      var base := t + [Sep] + date;
      JoinAfter(base, g);
    }
  }

  /** For every title and tag, with a date token as the date, the stem of
      the built name holds no space or illegal character, has no doubled
      separator and does not end with one; it starts with one exactly when
      the title sanitises to nothing. */
  lemma BuildFilenameStemShape(title: string, date: string, tag: string)
    requires IsDateToken(date)
    ensures var r := BuildFilename(title, date, tag);
      var stem := r[..|r| - 4];
      && IsBuiltStem(stem)
      && (stem[0] == Sep <==> Sanitize(title) == [])
  {
    DateTokenClean(date);
    StemOfShape(Sanitize(title), date, Sanitize(tag));
    StemOfBuilt(title, date, tag);
  }

  /** The built name is the assembled stem followed by `.mp3`. */
  lemma StemOfBuilt(title: string, date: string, tag: string)
    ensures var r := BuildFilename(title, date, tag);
      r[..|r| - 4] == StemOf(Sanitize(title), date, Sanitize(tag))
  {
    var stem := StemOf(Sanitize(title), date, Sanitize(tag));
    assert BuildFilename(title, date, tag) == stem + ".mp3";
    assert (stem + ".mp3")[..|stem|] == stem;
  }

  /** When the title sanitises to something and the date is a run of kept
      characters, the name built is a clean stem followed by `.mp3`. */
  lemma BuildFilenameStemClean(title: string, date: string, tag: string, i: nat)
    requires i < |title| && Kept(title[i]) && !IsSpace(title[i])
    requires date != [] && forall c :: c in date ==> Kept(c)
    ensures var r := BuildFilename(title, date, tag);
      IsCleanStem(r[..|r| - 4])
  {
    SanitizeKeepsVisible(title, i);
    KeptClean(date);
    StemOfShape(Sanitize(title), date, Sanitize(tag));
    StemOfBuilt(title, date, tag);
  }

  lemma SanitizeMySong()
    ensures Sanitize("My Song") == "My_Song"
  {
    var s := "My Song";
    assert !IsSpace(s[0]) && !IsSpace(s[6]);
    TrimNothing(s, IsSpace);
    assert Scrub(s) == "My_Song";
    assert NoDoubleSep("My_Song");
    CollapseFixesClean("My_Song");
    TrimNothing("My_Song", IsSep);
  }

  /** The naming example without a tag. */
  lemma BuildFilenameExampleNoTag()
    ensures BuildFilename("My Song", "2026-02-03", "") == "My_Song_2026-02-03.mp3"
  {
    SanitizeMySong();
    SanitizeEmpty();
    assert BuildFilename("My Song", "2026-02-03", "") == "My_Song" + "_" + "2026-02-03" + ".mp3" by {
      BuildFromSanitised("My Song", "2026-02-03", "", "My_Song", "");
    }
    ExampleSpelling();
  }

  /** The naming example with tag `T1`. */
  lemma BuildFilenameExampleTag()
    ensures BuildFilename("My Song", "2026-02-03", "T1") == "My_Song_2026-02-03_T1.mp3"
  {
    SanitizeMySong();
    SanitizeT1();
    BuildFromSanitised("My Song", "2026-02-03", "T1", "My_Song", "T1");
    ExampleSpelling();
  }

  lemma ExampleSpelling()
    ensures "My_Song" + "_" + "2026-02-03" + ".mp3" == "My_Song_2026-02-03.mp3"
    ensures "My_Song" + "_" + "2026-02-03" + "_" + "T1" + ".mp3" == "My_Song_2026-02-03_T1.mp3"
  {
  }

  lemma BuildFromSanitised(title: string, date: string, tag: string, t: string, g: string)
    requires Sanitize(title) == t && Sanitize(tag) == g
    ensures g == [] ==> BuildFilename(title, date, tag) == t + "_" + date + ".mp3"
    ensures g != [] ==> BuildFilename(title, date, tag) == t + "_" + date + "_" + g + ".mp3"
  {
  }

  lemma SanitizeT1()
    ensures Sanitize("T1") == "T1"
  {
    var s := "T1";
    assert !IsSpace(s[0]) && !IsSpace(s[1]);
    assert forall c :: c in s ==> !Replaced(c);
    assert NoDoubleSep(s);
    SanitizeFixesCleanText(s);
  }

  lemma SanitizeEmpty()
    ensures Sanitize("") == ""
  {
  }

  /** A title without a kept character, only spaces, illegal characters and
      separators, sanitises to nothing. */
  lemma SanitizeNothingKept(s: string)
    requires forall c :: c in s ==> !Kept(c)
    ensures Sanitize(s) == []
  {
  }

  lemma SanitizeQuestionMarks()
    ensures Sanitize("???") == ""
  {
    SanitizeNothingKept("???");
  }

  lemma EmptyTitleSpelling()
    ensures "" + "_" + "2026-02-03" + ".mp3" == "_2026-02-03.mp3"
  {
  }

  /** For a title without a kept character the name is the separator, the
      date and the tag part. */
  lemma BuildFilenameNothingKept(title: string, date: string, tag: string)
    requires forall c :: c in title ==> !Kept(c)
    ensures Sanitize(tag) == [] ==> BuildFilename(title, date, tag) == "_" + date + ".mp3"
    ensures Sanitize(tag) != [] ==> BuildFilename(title, date, tag) == "_" + date + "_" + Sanitize(tag) + ".mp3"
  {
    SanitizeNothingKept(title);
    assert Sanitize(title) + "_" == "_";
  }

  /** The title `???` sanitises to nothing, and the name then starts with
      the separator. */
  lemma BuildFilenameEmptyTitle()
    ensures Sanitize("???") == ""
    ensures BuildFilename("???", "2026-02-03", "") == "_2026-02-03.mp3"
  {
    SanitizeQuestionMarks();
    SanitizeEmpty();
    BuildFromSanitised("???", "2026-02-03", "", "", "");
    EmptyTitleSpelling();
  }

  /** The naming answers as `prompt_naming` returns them. */
  datatype NamingInput = NamingInput(title: string, tag: string)

  /** The tail of `prompt_naming` (main.py:90-101), with the answers of the
      two dialogs as parameters (`None` for a cancelled dialog): no answer
      or an empty title cancels; otherwise both answers are whitespace
      trimmed, a missing tag being the empty string. */
  function NamingFromAnswers(title: Option<string>, tag: Option<string>): (r: Option<NamingInput>)
    ensures r.None? <==> title == None || title == Some([])
    ensures r.Some? ==> r.value.title == Trim(title.value, IsSpace)
    ensures r.Some? ==> r.value.tag == Trim(tag.GetOr([]), IsSpace)
    ensures r.Some? ==> var n := r.value;
      && (n.title == [] || (!IsSpace(n.title[0]) && !IsSpace(n.title[|n.title| - 1])))
      && (n.tag == [] || (!IsSpace(n.tag[0]) && !IsSpace(n.tag[|n.tag| - 1])))
  {
    if title.None? || title.value == [] then None
    else Some(NamingInput(Trim(title.value, IsSpace), Trim(tag.GetOr([]), IsSpace)))
  }

  /** A title of blanks passes the emptiness test, which looks at the
      untrimmed answer, and leaves an empty title behind. */
  lemma BlankTitleAccepted(title: string, tag: Option<string>)
    requires title != [] && forall c :: c in title ==> IsSpace(c)
    ensures NamingFromAnswers(Some(title), tag) == Some(NamingInput("", Trim(tag.GetOr([]), IsSpace)))
  {
  }

  /** The two-blank title with the tag dialog cancelled. */
  lemma BlankTitleExample()
    ensures NamingFromAnswers(Some("  "), None) == Some(NamingInput("", ""))
  {
    BlankTitleAccepted("  ", None);
    assert Trim([], IsSpace) == [];
  }
}

=== FILE: paths.dfy ===
/** The parts of `pathlib` that main.py relies on: the final component of a
    path (`name`), and its split into `stem` and `suffix`. */
module Paths {

  /** Index of the last character before position `j` that satisfies `p`,
      or -1 when there is none. */
  function LastIndexBefore(s: string, p: char -> bool, j: nat): (i: int)
    requires j <= |s|
    ensures -1 <= i < j
    ensures i >= 0 ==> p(s[i])
    ensures forall k :: i < k < j ==> !p(s[k])
  {
    if j == 0 then -1 else if p(s[j - 1]) then j - 1 else LastIndexBefore(s, p, j - 1)
  }

  predicate IsDot(c: char) {
    c == '.'
  }

  /** Both separators a Windows path accepts. */
  predicate IsPathSep(c: char) {
    c == '/' || c == '\\'
  }

  /** Python's `name.rfind('.')`. */
  function LastDot(name: string): int {
    LastIndexBefore(name, IsDot, |name|)
  }

  /** `PurePath.name`: the text after the last path separator. */
  function BaseName(path: string): (r: string)
    ensures |r| <= |path| && r == path[|path| - |r|..]
    ensures forall c :: c in r ==> !IsPathSep(c)
    ensures |r| < |path| ==> IsPathSep(path[|path| - |r| - 1])
  {
    path[LastIndexBefore(path, IsPathSep, |path|) + 1..]
  }

  /** `PurePath.suffix`: from the last dot on, provided that dot is neither
      the first nor the last character of the name; otherwise empty. */
  function Suffix(name: string): (r: string)
    ensures r != [] ==> && 2 <= |r| < |name|
                        && r == name[|name| - |r|..]
                        && r[0] == '.'
                        && forall i :: 1 <= i < |r| ==> r[i] != '.'
    ensures r == [] ==> forall i :: 0 < i < |name| - 1 && name[i] == '.' ==>
                          exists k :: i < k < |name| && name[k] == '.'
  {
    var i := LastDot(name);
    if 0 < i < |name| - 1 then name[i..] else []
  }

  /** `PurePath.stem`: the name without its suffix. */
  function Stem(name: string): (r: string)
    ensures r + Suffix(name) == name
  {
    var i := LastDot(name);
    if 0 < i < |name| - 1 then name[..i] else name
  }

  /** A name ending in a dot-led extension that contains no other dot, with
      at least one character in front, has exactly that suffix. */
  lemma SuffixOfExtension(front: string, ext: string)
    requires front != [] && 2 <= |ext| && ext[0] == '.'
    requires forall i :: 1 <= i < |ext| ==> ext[i] != '.'
    ensures Suffix(front + ext) == ext
    ensures Stem(front + ext) == front
  {
    var name := front + ext;
    assert name[|front|] == '.';
    assert forall k :: |front| < k < |name| ==> name[k] == ext[k - |front|];
    assert LastDot(name) == |front|;
    assert name[|front|..] == ext;
  }

  /** The name of a file inside a directory is the part after the last
      separator. */
  lemma BaseNameOfJoin(dir: string, name: string)
    requires forall c :: c in name ==> !IsPathSep(c)
    ensures BaseName(dir + "\\" + name) == name
  {
    var path := dir + "\\" + name;
    assert path[|dir|] == '\\';
    assert forall k :: |dir| < k < |path| ==> path[k] == name[k - |dir| - 1];
    assert LastIndexBefore(path, IsPathSep, |path|) == |dir|;
    assert path[|dir| + 1..] == name;
  }
}

=== FILE: pattern.dfy ===
/** `WHATSAPP_RE` (main.py:19), `^WhatsApp Audio (\d{4}-\d{2}-\d{2}) at .*`
    compiled with IGNORECASE and applied with `match`, i.e. anchored at the
    start of the stem. */
module Pattern {
  import opened Text
  import opened Wrappers

  /** The literal text in front of the date group. */
  const Keyword: string := "WhatsApp Audio "

  /** The literal text after the date group; anything may follow it. */
  const Joiner: string := " at "

  /** The text of the date group: four digits, a dash, two digits, a dash,
      two digits. */
  predicate IsDateToken(s: string) {
    |s| == 10 && forall i :: 0 <= i < 10 ==> if i == 4 || i == 7 then s[i] == '-' else IsDigit(s[i])
  }

  /** Where the date group starts and ends, and how long the smallest match
      is. */
  const DateStart: nat := |Keyword|
  const DateEnd: nat := DateStart + 10
  const MatchLength: nat := DateEnd + |Joiner|

  /** The date group when the stem matches, `None` otherwise. */
  function MatchWhatsApp(stem: string): (r: Option<string>)
    ensures r.Some? ==> IsDateToken(r.value) && |stem| >= MatchLength && r.value == stem[DateStart..DateEnd]
  {
    if |stem| >= MatchLength
       && EqualsIgnoringCase(stem[..DateStart], Keyword)
       && IsDateToken(stem[DateStart..DateEnd])
       && EqualsIgnoringCase(stem[DateEnd..MatchLength], Joiner)
    then Some(stem[DateStart..DateEnd])
    else None
  }

  /** Every string the regular expression describes matches, with its date
      as the group: the keyword and joiner in any letter case, any date
      token, any tail. */
  lemma MatchAccepts(keyword: string, date: string, joiner: string, tail: string)
    requires EqualsIgnoringCase(keyword, Keyword)
    requires IsDateToken(date)
    requires EqualsIgnoringCase(joiner, Joiner)
    ensures MatchWhatsApp(keyword + date + joiner + tail) == Some(date)
  {
    var s := keyword + date + joiner + tail;
    assert s[..DateStart] == keyword;
    assert s[DateStart..DateEnd] == date;
    assert s[DateEnd..MatchLength] == joiner;
  }

  /** Conversely, every matching stem is made of those four parts. */
  lemma MatchDecomposes(stem: string)
    requires MatchWhatsApp(stem).Some?
    ensures var date := MatchWhatsApp(stem).value;
      && stem == stem[..DateStart] + date + stem[DateEnd..MatchLength] + stem[MatchLength..]
      && EqualsIgnoringCase(stem[..DateStart], Keyword)
      && EqualsIgnoringCase(stem[DateEnd..MatchLength], Joiner)
  {
  }

  lemma LowerKeepsDateToken(s: string)
    ensures IsDateToken(LowerStr(s)) <==> IsDateToken(s)
    ensures IsDateToken(s) ==> LowerStr(s) == s
  {
    if IsDateToken(s) {
      assert forall i :: 0 <= i < |s| ==> LowerStr(s)[i] == s[i];
    }
  }

  /** Letter case in the stem never changes the outcome. */
  lemma MatchIgnoresCase(stem: string)
    ensures MatchWhatsApp(LowerStr(stem)) == MatchWhatsApp(stem)
  {
    var l := LowerStr(stem);
    if |stem| >= MatchLength {
      assert l[DateStart..DateEnd] == LowerStr(stem[DateStart..DateEnd]);
      LowerKeepsDateToken(stem[DateStart..DateEnd]);
      assert EqualsIgnoringCase(l[..DateStart], Keyword) <==> EqualsIgnoringCase(stem[..DateStart], Keyword);
      assert EqualsIgnoringCase(l[DateEnd..MatchLength], Joiner) <==> EqualsIgnoringCase(stem[DateEnd..MatchLength], Joiner);
    }
  }

  /** The stem of the typical voice-message file name matches with its date;
      a stem that is too short does not. */
  lemma MatchExamples()
    ensures MatchWhatsApp("WhatsApp Audio 2026-02-03 at 21.34.20") == Some("2026-02-03")
    ensures MatchWhatsApp("random") == None
  {
    var date := "2026-02-03";
    assert IsDateToken(date);
    MatchAccepts(Keyword, date, Joiner, "21.34.20");
    assert Keyword + date + Joiner + "21.34.20" == "WhatsApp Audio 2026-02-03 at 21.34.20";
  }
}

=== FILE: pipeline.dfy ===
/** The whole of `Handler.on_created` up to the transcoder call
    (main.py:114-158): filter and dedup, stability wait, naming prompt,
    file name, destination. The watcher, the dialogs and the target folder
    are parameters: the poll sequence the waiter would see, the two dialog
    answers, and the names already in the target folder. */
module Pipeline {
  import opened Wrappers
  import opened Naming
  import opened Pattern
  import opened Collision
  import opened Events
  import opened Stability

  datatype Outcome =
    | Ignored(reason: Decision)        // a silent filter rejection
    | NotFinished                      // the stability wait timed out
    | Skipped                          // the naming dialog was cancelled
    | Convert(destination: string)     // the file goes to the transcoder

  method OnCreated(ledger: Ledger, path: string, isDir: bool, now: real,
                   polls: seq<Poll>, titleAnswer: Option<string>, tagAnswer: Option<string>,
                   existing: set<string>)
    returns (outcome: Outcome, ledger': Ledger)
    ensures ledger' == Admit(ledger, path, isDir, now).1
    ensures outcome.Ignored? <==> !Admit(ledger, path, isDir, now).0.Accepted?
    ensures outcome.Ignored? ==> outcome.reason == Admit(ledger, path, isDir, now).0
    ensures outcome.NotFinished? <==>
      Admit(ledger, path, isDir, now).0.Accepted? && WaitUntilStable(polls).None?
    ensures outcome.Skipped? <==>
      && Admit(ledger, path, isDir, now).0.Accepted?
      && WaitUntilStable(polls).Some?
      && NamingFromAnswers(titleAnswer, tagAnswer).None?
    ensures outcome.Convert? <==>
      && Admit(ledger, path, isDir, now).0.Accepted?
      && WaitUntilStable(polls).Some?
      && NamingFromAnswers(titleAnswer, tagAnswer).Some?
    ensures outcome.Convert? ==>
      var input := NamingFromAnswers(titleAnswer, tagAnswer).value;
      var name := BuildFilename(input.title, Admit(ledger, path, isDir, now).0.date, input.tag);
      && outcome.destination !in existing
      && (name !in existing ==> outcome.destination == name)
      && (name in existing ==> exists k :: LeastFree(existing, name, k) && outcome.destination == Candidate(name, k))
    ensures outcome.Convert? ==>
      var input := NamingFromAnswers(titleAnswer, tagAnswer).value;
      var d := outcome.destination;
      && IsBuiltName(d)
      && (d[0] == Sep <==> Sanitize(input.title) == [])
  {
    var step := Admit(ledger, path, isDir, now);
    var decision;
    decision, ledger' := step.0, step.1;
    if !decision.Accepted? {
      return Ignored(decision), ledger';
    }
    if WaitUntilStable(polls).None? {
      return NotFinished, ledger';
    }
    var info := NamingFromAnswers(titleAnswer, tagAnswer);
    if info.None? {
      return Skipped, ledger';
    }
    var filename := BuildFilename(info.value.title, decision.date, info.value.tag);
    var destination := NextAvailable(existing, filename);
    BuiltNameShape(info.value.title, decision.date, info.value.tag);
    PickKeepsShape(existing, filename, destination);
    return Convert(destination), ledger';
  }

  /** The built name has the built shape, and starts with the separator
      exactly when the title sanitised to nothing. */
  lemma BuiltNameShape(title: string, date: string, tag: string)
    requires IsDateToken(date)
    ensures var name := BuildFilename(title, date, tag);
      && IsBuiltName(name)
      && (name[0] == Sep <==> Sanitize(title) == [])
  {
    BuildFilenameStemShape(title, date, tag);
  }

  /** Every probe of the built name has the built shape too, and starts
      with the separator exactly when the title sanitised to nothing. */
  lemma ProbeOfBuiltName(title: string, date: string, tag: string, k: nat)
    requires IsDateToken(date)
    ensures var probe := Candidate(BuildFilename(title, date, tag), k);
      && IsBuiltName(probe)
      && (probe[0] == Sep <==> Sanitize(title) == [])
  {
    BuiltNameShape(title, date, tag);
    ProbeKeepsShape(BuildFilename(title, date, tag), k);
  }
}

=== FILE: split.dfy ===
/** An independent description of the last two steps of `sanitize`
    (main.py:41): the text is cut at every `_`, the empty pieces are
    dropped, and the rest is joined with single `_` characters, which is
    what Python's `"_".join(p for p in t.split("_") if p)` computes. */
module Split {
  import opened Text
  import opened Naming

  /** The non-empty pieces of `t` between separators, in order. */
  function Pieces(t: string): (ps: seq<string>)
    ensures forall i :: 0 <= i < |ps| ==> ps[i] != []
    ensures forall i, j :: 0 <= i < |ps| && 0 <= j < |ps[i]| ==> ps[i][j] != Sep
    decreases |t|
  {
    if t == [] then []
    else if t[0] == Sep then Pieces(t[1..])
    else
      var n := SkipForward(t, NotSep, 0);
      [t[..n]] + Pieces(t[n..])
  }

  /** The pieces joined with one separator between neighbours. */
  function Join(ps: seq<string>): string {
    if |ps| == 0 then []
    else if |ps| == 1 then ps[0]
    else ps[0] + [Sep] + Join(ps[1..])
  }

  lemma PiecesSepFirst(x: string)
    ensures Pieces([Sep] + x) == Pieces(x)
  {
    assert ([Sep] + x)[1..] == x;
  }

  /** Putting a kept character in front either starts a new first piece or
      extends the first one. */
  lemma PiecesCons(c: char, x: string)
    requires c != Sep
    ensures x == [] || x[0] == Sep ==> Pieces([c] + x) == [[c]] + Pieces(x)
    ensures x != [] && x[0] != Sep ==>
      Pieces(x) != [] && Pieces([c] + x) == [[c] + Pieces(x)[0]] + Pieces(x)[1..]
  {
    var t := [c] + x;
    var m := SkipForward(x, NotSep, 0);
    forall k | 0 <= k < m + 1 ensures NotSep(t[k]) {
      if k > 0 {
        assert t[k] == x[k - 1];
      }
    }
    assert m + 1 < |t| ==> t[m + 1] == x[m];
    SkipForwardUnique(t, NotSep, 0, m + 1);
    assert Pieces(t) == [t[..m + 1]] + Pieces(t[m + 1..]);
    assert t[..m + 1] == [c] + x[..m];
    assert t[m + 1..] == x[m..];
    if x != [] && x[0] != Sep {
      assert Pieces(x) == [x[..m]] + Pieces(x[m..]);
    } else {
      assert m == 0;
      assert x[m..] == x;
    }
  }

  /** Leading separators add no piece. */
  lemma {:induction false} PiecesSepPrefix(p: string, y: string)
    requires forall i :: 0 <= i < |p| ==> p[i] == Sep
    ensures Pieces(p + y) == Pieces(y)
  {
    if p == [] {
      assert p + y == y;
    } else {
      assert p + y == [Sep] + (p[1..] + y);
      PiecesSepFirst(p[1..] + y);
      PiecesSepPrefix(p[1..], y);
    }
  }

  /** Trailing separators add no piece. */
  lemma {:induction false} PiecesSepSuffix(y: string, q: string)
    requires forall i :: 0 <= i < |q| ==> q[i] == Sep
    ensures Pieces(y + q) == Pieces(y)
  {
    if y == [] {
      assert y + q == q + y;
      PiecesSepPrefix(q, y);
    } else {
      var c, z := y[0], y[1..];
      assert y == [c] + z && y + q == [c] + (z + q);
      PiecesSepSuffix(z, q);
      if c == Sep {
        PiecesSepFirst(z + q);
        PiecesSepFirst(z);
      } else {
        assert z != [] ==> (z + q)[0] == z[0];
        PiecesCons(c, z + q);
        PiecesCons(c, z);
      }
    }
  }

  /** Stripping separators from both ends keeps the pieces. */
  lemma PiecesOfStrip(u: string)
    ensures Pieces(Trim(u, IsSep)) == Pieces(u)
  {
    var a, b := TrimStart(u, IsSep), TrimEnd(u, IsSep);
    SplitThree(u, a, b);
    var p, m, q := u[..a], u[a..b], u[b..];
    forall i | 0 <= i < |p| ensures p[i] == Sep {
      assert p[i] == u[i];
    }
    forall i | 0 <= i < |q| ensures q[i] == Sep {
      assert q[i] == u[b + i];
    }
    PiecesSepPrefix(p, m + q);
    PiecesSepSuffix(m, q);
  }

  /** Collapsing runs of separators keeps the pieces. */
  lemma {:induction false} PiecesOfCollapse(s: string)
    ensures Pieces(CollapseSeps(s)) == Pieces(s)
    decreases |s|
  {
    if |s| > 1 {
      var x := s[1..];
      assert s == [s[0]] + x;
      PiecesOfCollapse(x);
      if s[0] == Sep {
        PiecesSepFirst(x);
        if s[1] != Sep {
          PiecesSepFirst(CollapseSeps(x));
        }
      } else {
        assert CollapseSeps(s) == [s[0]] + CollapseSeps(x);
        PiecesCons(s[0], x);
        PiecesCons(s[0], CollapseSeps(x));
      }
    }
  }

  lemma JoinCons(w: string, ps: seq<string>)
    requires ps != []
    ensures Join([w] + ps) == w + [Sep] + Join(ps)
  {
    assert ([w] + ps)[1..] == ps;
  }

  /** What follows the first separator of clean text is clean. */
  lemma CleanAfterSep(r: string, n: nat)
    requires SepsTidy(r) && n < |r| && r[n] == Sep
    ensures 0 < n < |r| - 1 && r[n + 1] != Sep && SepsTidy(r[n + 1..])
  {
    NoDoubleSepSlice(r, n + 1, |r|);
    assert r[n + 1..|r|] == r[n + 1..];
  }

  /** Text without a doubled separator and without one at either end is
      the join of its own pieces. */
  lemma {:induction false} JoinPiecesOfClean(r: string)
    requires SepsTidy(r)
    ensures Join(Pieces(r)) == r
    decreases |r|
  {
    if r != [] {
      var n := SkipForward(r, NotSep, 0);
      if n == |r| {
        JoinOfWord(r);
      } else {
        CleanAfterSep(r, n);
        JoinPiecesOfClean(r[n + 1..]);
        JoinPiecesStep(r, n);
      }
    }
  }

  /** Text without a separator is its own single piece. */
  lemma JoinOfWord(r: string)
    requires r != [] && SkipForward(r, NotSep, 0) == |r|
    ensures Join(Pieces(r)) == r
  {
    assert r[0] != Sep;
    assert r[|r|..] == [] && r[..|r|] == r;
  }

  /** Text starting with a kept character opens with the piece up to the
      first separator. */
  lemma PiecesFirst(r: string, n: nat)
    requires r != [] && r[0] != Sep && n == SkipForward(r, NotSep, 0)
    ensures Pieces(r) == [r[..n]] + Pieces(r[n..])
  {
  }

  /** The first piece, a separator, and the join of what follows. */
  lemma JoinPiecesStep(r: string, n: nat)
    requires r != [] && r[0] != Sep
    requires n == SkipForward(r, NotSep, 0) && n < |r| - 1
    requires Join(Pieces(r[n + 1..])) == r[n + 1..] != []
    ensures Join(Pieces(r)) == r
  {
    var rest, p := r[n + 1..], r[..n];
    var ps := Pieces(rest);
    assert Pieces(r) == [p] + ps by {
      PiecesFirst(r, n);
      assert r[n..] == [Sep] + rest;
      PiecesSepFirst(rest);
    }
    assert ps != [] by {
      assert Join(ps) != [];
    }
    JoinCons(p, ps);
    CutAtSep(r, n);
  }

  /** Text around a separator is what precedes it, the separator, and what
      follows it. */
  lemma CutAtSep(r: string, n: nat)
    requires n < |r| && r[n] == Sep
    ensures r == r[..n] + [Sep] + r[n + 1..]
  {
    assert r[n..] == [Sep] + r[n + 1..];
    assert r == r[..n] + r[n..];
  }

  /** `re.sub("_+", "_", t).strip("_")` is the join of the non-empty pieces
      of `t`: every run of separators between two kept characters becomes
      exactly one `_`, and runs at the ends vanish. */
  lemma CollapseThenStrip(t: string)
    ensures Trim(CollapseSeps(t), IsSep) == Join(Pieces(t))
  {
    var u := CollapseSeps(t);
    var r := Trim(u, IsSep);
    NoDoubleSepSlice(u, TrimStart(u, IsSep), TrimEnd(u, IsSep));
    JoinPiecesOfClean(r);
    PiecesOfStrip(u);
    PiecesOfCollapse(t);
  }

  /** `sanitize` splits the trimmed, scrubbed title at `_` and joins the
      non-empty pieces with single `_` characters. */
  lemma SanitizeSplitsAndJoins(s: string)
    ensures Sanitize(s) == Join(Pieces(Scrub(Trim(s, IsSpace))))
  {
    CollapseThenStrip(Scrub(Trim(s, IsSpace)));
  }
}

=== FILE: stability.dfy ===
/** `wait_until_file_is_stable` (main.py:22-34) with the clock abstracted:
    the waiter sees the finite sequence of polls it makes before the timeout
    expires, each the file size read or `None` when the file does not exist
    yet. */
module Stability {
  import opened Wrappers

  type Poll = Option<nat>

  /** The most recent size actually read among the first j polls, or -1
      (the initial `last_size`) when the file was never seen. */
  function LastRead(polls: seq<Poll>, j: nat): int
    requires j <= |polls|
  {
    if j == 0 then -1
    else if polls[j - 1].Some? then polls[j - 1].value
    else LastRead(polls, j - 1)
  }

  /** Poll j reads a positive size equal to the previous size read. */
  predicate SettlesAt(polls: seq<Poll>, j: nat)
    requires j < |polls|
  {
    polls[j].Some? && polls[j].value > 0 && polls[j].value == LastRead(polls, j)
  }

  /** The polling loop from poll i on, `last` being `last_size`. */
  function Scan(polls: seq<Poll>, i: nat, last: int): (r: Option<nat>)
    requires i <= |polls|
    requires last == LastRead(polls, i)
    ensures r.Some? ==> i <= r.value < |polls| && SettlesAt(polls, r.value)
    ensures r.Some? ==> forall j :: i <= j < r.value ==> !SettlesAt(polls, j)
    ensures r.None? ==> forall j :: i <= j < |polls| ==> !SettlesAt(polls, j)
    decreases |polls| - i
  {
    if i == |polls| then None
    else match polls[i]
      case None => Scan(polls, i + 1, last)
      case Some(size) =>
        if size == last && size > 0 then Some(i) else Scan(polls, i + 1, size)
  }

  /** The waiter: `Some(j)` when it returns True at poll j, `None` when it
      times out and returns False. It stops at the first poll that settles. */
  function WaitUntilStable(polls: seq<Poll>): (r: Option<nat>)
    ensures r.Some? ==> r.value < |polls| && SettlesAt(polls, r.value)
    ensures r.Some? ==> forall j :: 0 <= j < r.value ==> !SettlesAt(polls, j)
    ensures r.None? ==> forall j :: 0 <= j < |polls| ==> !SettlesAt(polls, j)
  {
    Scan(polls, 0, -1)
  }

  /** The size remembered before poll j, traced back to the poll that read
      it: no read at all, or a read at some a < j followed only by misses. */
  lemma {:induction false} LastReadSource(polls: seq<Poll>, j: nat)
    requires j <= |polls|
    ensures LastRead(polls, j) == -1 ==> forall m :: 0 <= m < j ==> polls[m].None?
    ensures LastRead(polls, j) != -1 ==>
      exists a :: (&& 0 <= a < j
                   && polls[a].Some? && polls[a].value == LastRead(polls, j)
                   && forall m :: a < m < j ==> polls[m].None?)
  {
    if j > 0 && polls[j - 1].None? {
      LastReadSource(polls, j - 1);
    }
  }

  /** Settling at poll b means: two successive existing reads, at a and b,
      agree on a positive size. Misses in between do not count. */
  lemma SettlesAtIffSuccessiveReads(polls: seq<Poll>, b: nat)
    requires b < |polls|
    ensures SettlesAt(polls, b) <==>
      exists a :: (&& 0 <= a < b
                   && polls[a].Some? && polls[b] == polls[a] && polls[a].value > 0
                   && forall m :: a < m < b ==> polls[m].None?)
  {
    LastReadSource(polls, b);
    if exists a :: (&& 0 <= a < b
                    && polls[a].Some? && polls[b] == polls[a] && polls[a].value > 0
                    && forall m :: a < m < b ==> polls[m].None?) {
      var a :| && 0 <= a < b
               && polls[a].Some? && polls[b] == polls[a] && polls[a].value > 0
               && forall m :: a < m < b ==> polls[m].None?;
      LastReadAfterMisses(polls, a, b);
    }
  }

  lemma {:induction false} LastReadAfterMisses(polls: seq<Poll>, a: nat, b: nat)
    requires a < b <= |polls| && polls[a].Some?
    requires forall m :: a < m < b ==> polls[m].None?
    ensures LastRead(polls, b) == polls[a].value
  {
    if b > a + 1 {
      LastReadAfterMisses(polls, a, b - 1);
    }
  }

  /** If the sizes read only ever grow, the file never counts as stable. */
  lemma GrowingNeverSettles(polls: seq<Poll>)
    requires forall a, b :: 0 <= a < b < |polls| && polls[a].Some? && polls[b].Some? ==> polls[a].value < polls[b].value
    ensures WaitUntilStable(polls) == None
  {
    forall j | 0 <= j < |polls| ensures !SettlesAt(polls, j) {
      LastReadSource(polls, j);
    }
  }

  lemma {:induction false} LastReadOfPrefix(polls: seq<Poll>, extra: seq<Poll>, j: nat)
    requires j <= |polls|
    ensures LastRead(polls + extra, j) == LastRead(polls, j)
  {
    if j > 0 {
      assert (polls + extra)[j - 1] == polls[j - 1];
      LastReadOfPrefix(polls, extra, j - 1);
    }
  }

  /** A waiter that would succeed keeps its answer when given more time. */
  lemma LongerWaitSameAnswer(polls: seq<Poll>, extra: seq<Poll>)
    requires WaitUntilStable(polls).Some?
    ensures WaitUntilStable(polls + extra) == WaitUntilStable(polls)
  {
    var k := WaitUntilStable(polls).value;
    var longer := polls + extra;
    forall j | 0 <= j <= k ensures SettlesAt(longer, j) == SettlesAt(polls, j) {
      LastReadOfPrefix(polls, extra, j);
      assert longer[j] == polls[j];
    }
  }

  /** One read never suffices, however large. */
  lemma SingleReadNeverSettles(size: nat)
    ensures WaitUntilStable([Some(size)]) == None
  {
    assert !SettlesAt([Some(size)], 0);
  }

  /** Empty reads never settle, even when repeated; the waiter returns at the
      second of two equal positive reads. */
  lemma WaitExamples()
    ensures WaitUntilStable([Some(0), Some(0)]) == None
    ensures WaitUntilStable([Some(0), Some(0), Some(100), Some(100)]) == Some(3)
    ensures WaitUntilStable([Some(100), None, Some(100)]) == Some(2)
  {
    var p := [Some(0), Some(0), Some(100), Some(100)];
    assert !SettlesAt(p, 0) && !SettlesAt(p, 1) && !SettlesAt(p, 2);
    assert SettlesAt(p, 3);
    var q := [Some(100), None, Some(100)];
    assert !SettlesAt(q, 0) && !SettlesAt(q, 1);
    assert SettlesAt(q, 2);
    var z := [Some(0), Some(0)];
    assert !SettlesAt(z, 0) && !SettlesAt(z, 1);
  }
}

=== FILE: text.dfy ===
/** Character classes and string helpers shared by the naming, path and
    pattern modules: Python's notion of whitespace, ASCII case folding,
    trimming, filtering and decimal rendering of integers. */
module Text {

  /** The characters for which Python's `str.isspace()` holds; these are what
      `str.strip()` with no argument removes from both ends. */
  predicate IsSpace(c: char) {
    || ('\t' <= c <= '\r')            // \t \n \v \f \r
    || ('\U{1c}' <= c <= '\U{1f}')    // file, group, record and unit separators
    || c == ' '
    || c == '\U{85}' || c == '\U{a0}' || c == '\U{1680}'
    || ('\U{2000}' <= c <= '\U{200a}')
    || c == '\U{2028}' || c == '\U{2029}' || c == '\U{202f}' || c == '\U{205f}' || c == '\U{3000}'
  }

  predicate IsDigit(c: char) {
    '0' <= c <= '9'
  }

  /** ASCII lower-casing of one character. */
  function Lower(c: char): (r: char)
    ensures 'A' <= c <= 'Z' ==> 'a' <= r <= 'z' && r as int - c as int == 32
    ensures !('A' <= c <= 'Z') ==> r == c
  {
    if 'A' <= c <= 'Z' then (c as int + 32) as char else c
  }

  function LowerStr(s: string): (r: string)
    ensures |r| == |s|
    ensures forall i :: 0 <= i < |s| ==> r[i] == Lower(s[i])
  {
    seq(|s|, i requires 0 <= i < |s| => Lower(s[i]))
  }

  /** Equality of two strings up to ASCII case. */
  predicate EqualsIgnoringCase(a: string, b: string) {
    |a| == |b| && forall i :: 0 <= i < |a| ==> Lower(a[i]) == Lower(b[i])
  }

  /** Index of the first character at or after `i` that `drop` keeps
      (`|s|` if there is none). */
  function SkipForward(s: string, drop: char -> bool, i: nat): (n: nat)
    requires i <= |s|
    ensures i <= n <= |s|
    ensures forall k :: i <= k < n ==> drop(s[k])
    ensures n == |s| || !drop(s[n])
    decreases |s| - i
  {
    if i == |s| || !drop(s[i]) then i else SkipForward(s, drop, i + 1)
  }

  /** The three facts `SkipForward` ensures pin its result down. */
  lemma SkipForwardUnique(s: string, drop: char -> bool, i: nat, n: nat)
    requires i <= n <= |s|
    requires forall k :: i <= k < n ==> drop(s[k])
    requires n == |s| || !drop(s[n])
    ensures SkipForward(s, drop, i) == n
  {
  }

  /** Index just past the last character before `j` that `drop` keeps,
      never going below `lo`. */
  function SkipBackward(s: string, drop: char -> bool, lo: nat, j: nat): (m: nat)
    requires lo <= j <= |s|
    ensures lo <= m <= j
    ensures forall k :: m <= k < j ==> drop(s[k])
    ensures m == lo || !drop(s[m - 1])
    decreases j
  {
    if j == lo || !drop(s[j - 1]) then j else SkipBackward(s, drop, lo, j - 1)
  }

  /** Where the text kept by `Trim` starts. */
  function TrimStart(s: string, drop: char -> bool): nat
    ensures TrimStart(s, drop) <= |s|
  {
    SkipForward(s, drop, 0)
  }

  /** Where the text kept by `Trim` ends. */
  function TrimEnd(s: string, drop: char -> bool): nat
    ensures TrimStart(s, drop) <= TrimEnd(s, drop) <= |s|
  {
    SkipBackward(s, drop, TrimStart(s, drop), |s|)
  }

  /** Python's `s.strip(chars)`: both ends trimmed of the characters `drop`
      selects. */
  function Trim(s: string, drop: char -> bool): (r: string)
    ensures r == s[TrimStart(s, drop)..TrimEnd(s, drop)]
    ensures forall i :: 0 <= i < TrimStart(s, drop) ==> drop(s[i])
    ensures forall i :: TrimEnd(s, drop) <= i < |s| ==> drop(s[i])
    ensures r == [] || (!drop(r[0]) && !drop(r[|r| - 1]))
    ensures forall c :: c in r ==> c in s
  {
    s[TrimStart(s, drop)..TrimEnd(s, drop)]
  }

  /** The characters of `s` that satisfy `keep`, in order. */
  function Filter(s: string, keep: char -> bool): (r: string)
    ensures |r| <= |s|
  {
    if s == [] then []
    else (if keep(s[0]) then [s[0]] else []) + Filter(s[1..], keep)
  }

  /** A character is in the filtered text exactly when it is in the text
      and kept. */
  lemma {:induction false} FilterMembers(s: string, keep: char -> bool, c: char)
    ensures c in Filter(s, keep) <==> c in s && keep(c)
  {
    if s != [] {
      FilterMembers(s[1..], keep, c);
      assert s == [s[0]] + s[1..];
    }
  }

  lemma {:induction false} FilterAppend(a: string, b: string, keep: char -> bool)
    ensures Filter(a + b, keep) == Filter(a, keep) + Filter(b, keep)
  {
    if a == [] {
      assert a + b == b;
    } else {
      var h := if keep(a[0]) then [a[0]] else [];
      assert (a + b)[0] == a[0] && (a + b)[1..] == a[1..] + b;
      assert Filter(a + b, keep) == h + Filter(a[1..] + b, keep);
      FilterAppend(a[1..], b, keep);
      assert h + (Filter(a[1..], keep) + Filter(b, keep))
          == (h + Filter(a[1..], keep)) + Filter(b, keep);
    }
  }

  /** Filtering by two classes that agree on every character of `s` gives
      the same result. */
  lemma {:induction false} FilterAgree(s: string, k1: char -> bool, k2: char -> bool)
    requires forall c :: c in s ==> k1(c) == k2(c)
    ensures Filter(s, k1) == Filter(s, k2)
  {
    if s != [] {
      FilterAgree(s[1..], k1, k2);
    }
  }

  /** A string none of whose characters is kept filters to nothing. */
  lemma {:induction false} FilterNone(s: string, keep: char -> bool)
    requires forall i :: 0 <= i < |s| ==> !keep(s[i])
    ensures Filter(s, keep) == []
  {
    if s != [] {
      FilterNone(s[1..], keep);
    }
  }

  /** Text the filter drops entirely on both sides of `m` leaves just what
      it keeps of `m`. */
  lemma FilterBetween(p: string, m: string, q: string, keep: char -> bool)
    requires forall i :: 0 <= i < |p| ==> !keep(p[i])
    requires forall i :: 0 <= i < |q| ==> !keep(q[i])
    ensures Filter(p + (m + q), keep) == Filter(m, keep)
  {
    FilterAppend(p, m + q, keep);
    FilterAppend(m, q, keep);
    FilterNone(p, keep);
    FilterNone(q, keep);
  }

  lemma SplitThree(s: string, a: nat, b: nat)
    requires a <= b <= |s|
    ensures s == s[..a] + (s[a..b] + s[b..])
  {
    assert s[a..] == s[a..b] + s[b..];
  }

  /** Cutting off ends the filter drops entirely does not change what it
      keeps. */
  lemma FilterOfSlice(s: string, a: nat, b: nat, keep: char -> bool)
    requires a <= b <= |s|
    requires forall i :: 0 <= i < a ==> !keep(s[i])
    requires forall i :: b <= i < |s| ==> !keep(s[i])
    ensures Filter(s[a..b], keep) == Filter(s, keep)
  {
    SplitThree(s, a, b);
    NoneKeptSlice(s, 0, a, keep);
    NoneKeptSlice(s, b, |s|, keep);
    assert s[0..a] == s[..a] && s[b..|s|] == s[b..];
    FilterBetween(s[..a], s[a..b], s[b..], keep);
  }

  lemma NoneKeptSlice(s: string, lo: nat, hi: nat, keep: char -> bool)
    requires lo <= hi <= |s|
    requires forall i :: lo <= i < hi ==> !keep(s[i])
    ensures forall i :: 0 <= i < hi - lo ==> !keep(s[lo..hi][i])
  {
    forall i | 0 <= i < hi - lo ensures !keep(s[lo..hi][i]) {
      assert s[lo..hi][i] == s[lo + i];
    }
  }

  /** Trimming characters the filter drops anyway does not change what the
      filter keeps. */
  lemma FilterOfTrim(s: string, drop: char -> bool, keep: char -> bool)
    requires forall i :: 0 <= i < |s| && drop(s[i]) ==> !keep(s[i])
    ensures Filter(Trim(s, drop), keep) == Filter(s, keep)
  {
    var a, b := TrimStart(s, drop), TrimEnd(s, drop);
    assert Trim(s, drop) == s[a..b];
    FilterOfSlice(s, a, b, keep);
  }

  /** Trimming a string whose two ends are not droppable changes nothing. */
  lemma TrimNothing(s: string, drop: char -> bool)
    requires s == [] || (!drop(s[0]) && !drop(s[|s| - 1]))
    ensures Trim(s, drop) == s
  {
    if s != [] {
      assert TrimStart(s, drop) == 0;
      assert TrimEnd(s, drop) == |s|;
    }
  }

  /** Trimming a string with a droppable end makes it strictly shorter. */
  lemma TrimShortens(s: string, drop: char -> bool)
    requires s != [] && (drop(s[0]) || drop(s[|s| - 1]))
    ensures |Trim(s, drop)| < |s|
  {
  }

  const Digits: string := "0123456789"

  function DigitValue(c: char): int {
    c as int - '0' as int
  }

  /** Decimal rendering of a natural number, as Python's `str(n)` / `f"{n}"`. */
  function Decimal(n: nat): (r: string)
    ensures |r| >= 1
    ensures forall c :: c in r ==> IsDigit(c)
    ensures r[0] == '0' ==> n == 0
  {
    if n < 10 then [Digits[n]] else Decimal(n / 10) + [Digits[n % 10]]
  }

  /** Reads back a string of decimal digits. */
  function ParseDecimal(s: string): int {
    if s == [] then 0 else ParseDecimal(s[..|s| - 1]) * 10 + DigitValue(s[|s| - 1])
  }

  lemma {:induction false} DecimalRoundTrip(n: nat)
    ensures ParseDecimal(Decimal(n)) == n
  {
    if n >= 10 {
      var s := Decimal(n);
      assert s[..|s| - 1] == Decimal(n / 10);
      DecimalRoundTrip(n / 10);
    }
  }

  lemma DecimalInjective(a: nat, b: nat)
    requires Decimal(a) == Decimal(b)
    ensures a == b
  {
    DecimalRoundTrip(a);
    DecimalRoundTrip(b);
  }
}

=== FILE: wrappers.dfy ===
/** The optional-value datatype used throughout the model, standing in for
    Python's `None`-or-value returns. */
module Wrappers {

  datatype Option<+T> = None | Some(value: T) {

    /** Python's `x or default` for an answer that may be missing. */
    function GetOr(default: T): T {
      match this
      case Some(v) => v
      case None => default
    }
  }
}
